=== FILE: README.md ===
# Orbital notes: a Dafny model of note persistence and identity

This project models the part of the Orbital desktop note-taking app that
decides where notes live and what they are called: a vault of Markdown
files with frontmatter, managed by the Electron main process, and the
renderer's state of notes, open tabs and active note that drives it.

- `Vault` (electron/main.ts): vault-path resolution with fallback to
  `<documents>/Orbital`, start-up creation of the vault, directory switching
  (`select-directory`), listing (`get-notes`), saving with rename-as-move
  (`save-note`) and deletion (`delete-note`). The disk is a config file plus a
  map from directory path to its files (name to text). The `get-vault-path`
  handler is the `vault` field of `Main`. The frontmatter library is the
  `Codec` parameter: two uninterpreted functions, with `parse` returning None
  where the library throws. Dialog results, read, stat, rename and write
  failures, and the order `readdirSync` returns are inputs.
- `App` (src/App.tsx): note creation with the case-insensitive
  "Untitled N" search (a loop whose termination is proved from the finite set
  of taken titles), updates with renames that carry over to tabs and the active
  id, confirmed deletion, tab selection and closing (also Ctrl+W), and the
  `activeNote` / `openNotes` projections. Each transition returns the new state
  and the request it sends to the main process.
- `Editor`, `Sidebar`, `Language`: tag entry and removal, single-field edits,
  title and content commit guards, the title-size cycle, the search filter,
  icon and title fallbacks, the empty-list message, and the translation
  fallback chain with the stored UI language.
- `Text`, `Seqs`, `Options`, `Notes`: the JavaScript string and array
  operations the code relies on (`toLowerCase` on ASCII, `trim`, `indexOf`,
  `includes`, `replace`, `filter`) and the `Note` record of src/types.ts.

The model keeps the code's sharp edges and proves them. A failed rename
leaves the old file orphaned next to the new one (`Vault.FailedRenameOrphans`).
`file.replace('.md', '')` deletes the first ".md", not the extension
(`Vault.StemIsNotSuffixStrip`). Because of that, two files can be listed
under one id (`Vault.ListingCanDuplicateIds`), and an edit of such a note is
written to a different file (`Vault.EditOfMisreadNoteLandsElsewhere`).
Renaming onto another note's title gives two records one id
(`App.RenameCanDuplicateIds`). Ctrl+W does nothing when the active id is the
empty string (`App.CloseActiveTab`).

## Model

| member | source | states |
|---|---|---|
| Vault.GetVaultPath | electron/main.ts:20-33 | The configured path is returned only when the config parses, `vaultPath` is a non-empty string and that directory exists; every other case, including an unreadable config, gives `<documents>/Orbital`. |
| Vault.EnsureDir | electron/main.ts:37-39 | Afterwards the directory exists; an existing one is left as it was (no files lost) and a missing one is created empty; no other directory changes. |
| Vault.Boot | electron/main.ts:35-39 | After start-up the resolved vault exists, whether it existed before or was created; a usable config or an existing vault leaves the disk unchanged; a missing vault is created empty and nothing else on the disk changes. |
| Vault.SelectDirectory | electron/main.ts:44-59 | With no window, a cancelled dialog or no path, the result is null and nothing changes; otherwise the first path is written to the config, becomes the vault and is returned, and no directory changes. |
| Vault.SelectThenBoot | electron/main.ts:20-59 | A directory chosen in the picker is the vault the next start-up resolves: the config write and the config read round-trip. |
| Vault.LoadFile | electron/main.ts:69-86 | A file yields a note exactly when it reads, parses and stats; the note's id and title are both the file name with its first ".md" deleted; its content, icon and tags are the parsed frontmatter's, and its createdAt and updatedAt are the file's birth and modification times. |
| Vault.LoadAll | electron/main.ts:68-87 | The listing has no more notes than there are directory entries; its contents are stated by LoadAllSound, LoadAllAppend and LoadAllLoadable. |
| Vault.LoadAllSound | electron/main.ts:68-87 | Every listed note comes from a loadable ".md" entry, and every loadable ".md" entry gives a listed note. |
| Vault.LoadAllLoadable | electron/main.ts:68-87 | When every entry is a loadable note file, the listing has one note per entry. |
| Vault.LoadAllAppend | electron/main.ts:68-87 | Listing works file by file: the listing of a concatenation is the concatenation of the listings. |
| Vault.ListingResilience | electron/main.ts:69-87 | A vault with N loadable note files and one that fails, in any position, lists exactly N notes. |
| Vault.GetNotes | electron/main.ts:61-93 | The vault is re-created if missing; a failed listing gives []; otherwise the notes are the listing of the directory entries, file by file in readdir order; each note has id equal to title and is the note some ".md" file of the vault loads to; every loadable ".md" file appears. |
| Vault.SaveNote | electron/main.ts:95-123 | Returns true exactly when the final write happens; only `id.md` and `title.md` can change; a successful write leaves `title.md` holding the encoded body, icon or '' and tags or []; a successful rename removes `id.md`; a failed rename is swallowed and leaves `id.md` as it was; rename is tried only for a non-empty id that differs from the title and whose file exists. |
| Vault.FailedRenameOrphans | electron/main.ts:99-117 | When the rename fails and the write succeeds, both the old and the new file are in the vault. |
| Vault.DeleteNote | electron/main.ts:125-132 | Returns true exactly when `title.md` exists, and then removes only that entry; otherwise returns false and changes nothing. |
| Vault.DeleteTwice | electron/main.ts:125-132 | A second delete of the same title returns false and leaves the disk unchanged. |
| Vault.FileName | electron/main.ts:96-100 | The file of a title is the title followed by ".md", so it is always a note file the listing picks up. |
| Vault.FileNameInjective | electron/main.ts:96-100 | Two titles share a file name exactly when they are equal, so a rename never targets its own source. |
| Vault.TitleRoundTrip | electron/main.ts:76-96 | A title with no ".md" inside is recovered from its file name, so the listing gives back the id a save used. |
| Vault.SaveThenList | electron/main.ts:69-117 | After a successful save of such a title, listing the new file (when it reads, parses and stats) gives a note whose id and title are that title. |
| Vault.StemCutsFirst | electron/main.ts:76-77 | The id of a note file is its name with the first ".md" cut out, wherever that occurrence is. |
| Vault.StemIsNotSuffixStrip | electron/main.ts:76-77 | "x.mdy.md" is listed as "xy.md", whose own file name is not "x.mdy.md". |
| Vault.EditOfMisreadNoteLandsElsewhere | electron/main.ts:76-117 | Saving the note listed from "x.mdy.md" writes "xy.md.md" and leaves "x.mdy.md" untouched. |
| Vault.DeleteOfMisreadNoteMisses | electron/main.ts:76-132 | Deleting the note listed from "x.mdy.md" targets "xy.md.md"; when that file is absent the delete returns false, the disk is unchanged and "x.mdy.md" stays. |
| Vault.ListingCanDuplicateIds | electron/main.ts:76-77 | The distinct note files "ab.md.md" and "a.mdb.md" are both listed with id "ab.md". |
| App.Find | src/App.tsx:182 | Returns the first record with the id; None exactly when no record has it. |
| App.ActiveNote | src/App.tsx:182 | No active id gives no note; otherwise the note is the first record with the active id, or none when no record has it. |
| App.OpenNotesOf | src/App.tsx:183 | There are no more open notes than tabs, and each open note is a record whose id is an open tab. |
| App.OpenNotesOfOne | src/App.tsx:183 | One tab contributes the first record with its id, or nothing when no record has it. |
| App.OpenNotesAppend | src/App.tsx:183 | The open notes of two runs of tabs are those of the first run followed by those of the second; with OpenNotesOfOne this fixes the open notes as the records of the tabs that have one, in tab order. |
| App.OpenNotesFollowTabs | src/App.tsx:183 | When every tab has a record, the open notes follow the tabs one to one, in tab order. |
| App.OpenNotesDropMissing | src/App.tsx:183 | Tabs whose ids have no record contribute no open note. |
| App.Loaded | src/App.tsx:40-48 | After loading, the listed notes are held, no tab is open and nothing is active. |
| App.ListedNotesMatchTitles | src/App.tsx:40-48 | Every note the repository lists has its title as id. |
| App.SelectNote | src/App.tsx:135-141 | The id is appended to the tabs only if absent, existing tabs keep their positions, and it becomes active. |
| App.SelectKeepsTabsDistinct | src/App.tsx:135-141 | Selecting never creates a duplicate tab. |
| App.CloseTab | src/App.tsx:143-151 | The id leaves the tabs, the other tabs stay in order, each as many times as before; if it was active, the last remaining tab or none becomes active, otherwise the active id is unchanged; an active id among the tabs stays among them. |
| App.CloseActiveTab | src/App.tsx:162-168 | Ctrl+W closes the active tab only when the active id is non-empty, exactly as closing that tab does (the last remaining tab or none becomes active); otherwise nothing changes. |
| App.UntitledTitle | src/App.tsx:53-65 | The result is the base title when its lower case is free, else "base N" for the smallest N >= 1 whose lower case is free; the result is never taken case-insensitively, and N is at most the number of taken titles, so the search ends. |
| App.CandidateLowerInjective | src/App.tsx:59-64 | Different counters give different lower-case candidates, so every failed probe uses up a distinct taken title. |
| App.CreateNewNote | src/App.tsx:50-84 | With no main process nothing changes; otherwise the new note has id = title, empty content, tags [] and icon '', is saved, is prepended to the notes, appended to the tabs and made active; case-insensitively distinct titles stay distinct and the active id is an open tab; when the base title is taken, the title is "base N" with every smaller counter taken. |
| App.UpdateNote | src/App.tsx:86-109 | Records with the edited id are replaced by the edited note with refreshed `updatedAt` and id set to its title; with an unchanged title tabs and active id stay; with a changed title every tab with the old id gets the new one, order and length kept, and the new id becomes active; the save request carries the old id and the new title. |
| App.RenameRetiresOldId | src/App.tsx:90-98 | After a rename no record and no tab carries the old id. |
| App.RenameActiveKeepsActiveOpen | src/App.tsx:94-98 | Renaming the active note keeps the active id among the open tabs. |
| App.UpdateKeepsIdsMatchTitles | src/App.tsx:86-109 | Updates preserve "every record's id is its title". |
| App.RenameCanDuplicateIds | src/App.tsx:90-94 | Renaming a note to another note's title leaves two records with the same id. |
| App.RenameReachesDisk | src/App.tsx:90-102 | The save request of a rename, handled with a rename and a write that succeed, leaves the note only under its new file name, holding its encoded body. |
| App.CommittedTitleRenames | src/App.tsx:86-102 | A title committed in the editor for a note whose id is its title is handled as a rename keeping the old id in the save request. |
| App.ContentEditInPlace | src/App.tsx:103-108 | A content edit from the editor leaves the tabs and the active id as they were. |
| App.DeleteNote | src/App.tsx:111-127 | An unknown id or an unconfirmed delete changes nothing; otherwise the repository delete gets the note's title, exactly the records with that id are removed (others kept in order, each as many times as before), and its tab is closed if open. |
| Editor.EditField | src/components/Editor.tsx:140-145 | A field edit replaces exactly one field of the note and keeps all others, id and timestamps included. |
| Editor.EditFieldOverrides | src/components/Editor.tsx:140-145 | Two edits of the same field keep only the second value. |
| Editor.RemoveIcon | src/components/Editor.tsx:152-155 | Removing the icon sets it to undefined and changes nothing else. |
| Editor.RemoveIconAfterPick | src/components/Editor.tsx:147-155 | Picking an emoji and then removing the icon gives the same note as removing it directly. |
| Editor.AddTag | src/components/Editor.tsx:297-309 | The input is trimmed; an all-whitespace input does nothing; a tag already present (exact match) is not added; otherwise it is appended to the tags, missing tags counting as []; any non-empty input clears the box. |
| Editor.AddTagKeepsDistinct | src/components/Editor.tsx:302-304 | Adding a tag never creates a duplicate tag. |
| Editor.RemoveTag | src/components/Editor.tsx:283-285 | Every occurrence of the tag is removed, the other tags are all kept in order with their multiplicity, and missing tags stay missing. |
| Editor.AddThenRemove | src/components/Editor.tsx:283-304 | Removing a tag that was just added restores the previous list. |
| Editor.CommitTitle | src/components/Editor.tsx:121-133 | A title edit is emitted only on blur or Enter and only when the local title differs from the note's. |
| Editor.ContentChange | src/components/Editor.tsx:76-84 | A content update is emitted only when the markdown differs from the note's content. |
| Editor.ContentChangeSettles | src/components/Editor.tsx:76-84 | Once the emitted content is the note's, the same markdown emits nothing more. |
| Editor.JsRem | src/components/Editor.tsx:158 | For a non-negative dividend it is the ordinary remainder; for a negative one it lies in (-divisor, 0], as JavaScript's `%` does. |
| Editor.JsRemOdd | src/components/Editor.tsx:158 | Negating the dividend negates the remainder, so a negative dividend gives minus the remainder of its magnitude (truncation toward zero). |
| Editor.ToggleTitleSize | src/components/Editor.tsx:157-159 | The toggled size stays in -2..2, and in 0..2 whenever the previous size is at least -1. |
| Editor.TitleSizeCycle | src/components/Editor.tsx:157-168 | From 0..2 the size cycles 0 -> 1 -> 2 -> 0 and shows "text-3xl", "text-4xl", "text-5xl". |
| Editor.TitleClass | src/components/Editor.tsx:161-168 | Sizes 0, 1, 2 show "text-3xl", "text-4xl", "text-5xl"; every other size shows "text-4xl". |
| Editor.NegativeTitleSize | src/components/Editor.tsx:157-168 | A stored size below -1 keeps the toggle non-positive, and negative sizes fall back to "text-4xl". |
| Editor.MinusFiveTogglesToMinusOne | src/components/Editor.tsx:157-168 | A stored size of -5 toggles to -1, which shows "text-4xl". |
| Sidebar.FilteredNotes | src/components/Sidebar.tsx:103-106 | The result is an order-preserving subsequence of the notes; every kept note has the lower-cased query in its lower-cased title or content, and every matching note is kept as many times as it occurs. |
| Sidebar.EmptyQueryKeepsAll | src/components/Sidebar.tsx:103-106 | An empty query keeps every note. |
| Sidebar.SearchIgnoresCase | src/components/Sidebar.tsx:103-106 | A query and its lower-case form select the same notes. |
| Sidebar.ActiveIcon | src/components/Sidebar.tsx:108-109 | A known app-icon name shows its icon; any other name falls back to Rocket. |
| Sidebar.DisplayTitle | src/components/Sidebar.tsx:176 | A title that is only whitespace shows the untitled label; any other title shows trimmed and non-empty. |
| Sidebar.EmptyListMessage | src/components/Sidebar.tsx:156-160 | An empty expanded list shows "noNotesFound" when the query is non-empty and "noNotes" otherwise. |
| Sidebar.NoNotesOnlyWhenEmpty | src/components/Sidebar.tsx:103-160 | With no query the empty-list message appears only when there are no notes. |
| Language.T | src/contexts/LanguageContext.tsx:22-24 | The current language's entry when non-empty, else the Spanish entry when non-empty, else the key, so a non-empty key never gives an empty text; a language with no table throws. |
| Language.LookupSources | src/contexts/LanguageContext.tsx:23 | The lookup returns the own entry, the Spanish entry or the key, nothing else. |
| Language.InitialLanguage | src/contexts/LanguageContext.tsx:14-16 | The stored language when a non-empty one is stored, else 'es'; the result is never empty. |
| Language.StoreLanguage | src/contexts/LanguageContext.tsx:18-20 | The current language is stored under its key; other stored values stay, and no other key is added. |
| Language.LanguageRoundTrip | src/contexts/LanguageContext.tsx:14-20 | A language that is stored is the one the next start picks. |
| Language.FirstStartStoresDefault | src/contexts/LanguageContext.tsx:14-20 | With nothing stored, the first start picks 'es' and stores it. |
| Language.UnknownLanguageThrows | src/contexts/LanguageContext.tsx:14-23 | A stored language with no translation table makes every lookup throw. |
| Text.Lower | src/components/Sidebar.tsx:104-105 | The lower-cased string has the same length, and each character is lowered on its own. |
| Text.Trim | src/components/Editor.tsx:300 | The result is the part of the input between two runs of whitespace and neither starts nor ends with whitespace. |
| Text.TrimEmptyIff | src/components/Sidebar.tsx:176 | A string trims to empty exactly when it is whitespace only. |
| Text.IndexOf | electron/main.ts:76 | The first position where the pattern occurs, or none when it never occurs. |
| Text.Contains | src/components/Sidebar.tsx:104-105 | True exactly when the pattern occurs somewhere in the string. |
| Text.RemoveFirst | electron/main.ts:76-77 | Without an occurrence the string is unchanged; otherwise the first occurrence of the pattern is cut out, and nothing else changes. |
| Text.DecimalRoundTrip | src/App.tsx:60-63 | The decimal rendering of a counter reads back as that counter, so different counters render differently. |
| Seqs.Filter | src/App.tsx:144 | The result is a subsequence of the input in which every element passes the test. |
| Seqs.FilterCount | src/App.tsx:119 | Every value that passes the test is kept as many times as it occurs. |

Three helpers have no row of their own. `Vault.Stem` (electron/main.ts:76-77) is described by `Vault.StemCutsFirst` and `Vault.TitleRoundTrip`. `Vault.Payload` (electron/main.ts:112-115) is described by `Vault.SaveNote` and `App.RenameReachesDisk`. `Sidebar.IconFor` (src/components/Sidebar.tsx:8-70), the icon table, is described by `Sidebar.ActiveIcon`.

## Left out

- The compiled copy dist-electron/main.cjs, which repeats the handlers of electron/main.ts.
- Frontmatter parsing and stringifying: the library is not part of this model. It is the uninterpreted `Codec`, and no round trip between its two functions is assumed or proved.
- JSON parsing of the config file: the config is stored as parsed structure, with unreadable and malformed files merged into one case. A non-string truthy `vaultPath` is treated as absent.
- Exceptions that escape a handler: a failing `mkdirSync` at start-up, a failing config write in `select-directory`, and a failing `unlinkSync` in `delete-note`. The model takes these calls to succeed.
- GetNotes: in `get-notes` the vault is re-created inside the handler's try, so a failing `mkdirSync` gives [] with the vault still missing. The model always creates the vault, and a failure covers only the listing.
- GetVaultPath: `fs.existsSync(config.vaultPath)` also accepts a regular file. The disk model has directories only, so a configured path that names a file is not representable.
- SaveNote: the final `writeFileSync` is modelled as atomic. A failed write is taken to leave `title.md` as it was, although the 'w' open truncates the file first, so a write that fails part-way can leave it empty or partly written.
- DeleteNote, SaveNote, FileNameInjective: file names are compared case-sensitively, as exact keys. On a case-insensitive file system (the default on Windows and macOS) "PLANS.md" and "plans.md" are one file, so a save or delete under one title can overwrite, move onto or unlink another note's file; the model does not cover that.
- Path handling: `path.join` normalisation, recursive creation of parent directories, and titles that contain path separators. File names are flat keys inside the vault directory.
- Window creation, IPC wiring, menus, context menu and the dialog itself. Only the dialog's result is an input, and the window's existence is a flag.
- Timestamps are opaque integers. The two `Date.now()` calls of one update are one value `now`, and so are the two of `createNewNote` (its `createdAt` and `updatedAt`).
- `confirm()` is a boolean input. Asynchronous ordering, React state batching and stale closures are not modelled: transitions run one after another.
- `toLowerCase` only lowers ASCII letters. `trim` uses the full ECMAScript whitespace set.
- The `Note.content` field is always a string, as src/types.ts declares, so `note.content || ''` is the content itself.
- Reading the stored title size through `parseInt`, including its NaN case. The toggle is modelled on integers.
- `IconMap` lookups of inherited object keys such as "constructor", which JavaScript would find on the prototype.
- The editor's sync of the local title and content when the note changes, the tiptap editor, markdown conversion, emoji picker and toolbar.
- src/components/Settings.tsx, src/components/TabBar.tsx (pure rendering; its title fallback is the one of `Sidebar.DisplayTitle`), tailwind.config.js and src/electron.d.ts.
- The translation tables (src/i18n/translations is not part of this model) are a parameter. The base title of a new note, `t('newNoteDefault')`, is an input to `App.CreateNewNote`.

=== FILE: app.dfy ===
/** The renderer's application state controller: the in-memory notes, the
    open tabs and the active note, and the transitions that create, update,
    delete, select and close notes. Each transition is a pure function from
    the state before to the state after plus the request it sends to the main
    process (the `save-note` or `delete-note` call, if any). */
module App {
  import opened Options
  import opened Text
  import opened Seqs
  import opened Notes
  import Vault
  import Editor

  /** `notes`, `openNoteIds`, `activeNoteId` and `showSettings`. */
  datatype AppState = AppState(notes: seq<Note>, openIds: seq<string>, active: Option<string>, showSettings: bool)

  /** The request a transition sends to the main process. */
  datatype Call = NoCall | SaveCall(note: Note) | DeleteCall(title: string)

  datatype Step = Step(state: AppState, call: Call)

  // ---------------------------------------------------------- invariants

  /** The active id, when there is one, is an open tab. */
  predicate ActiveIsOpen(s: AppState) {
    s.active.Some? ==> s.active.value in s.openIds
  }

  /** Every record's id equals its title (what loading and every transition produce). */
  predicate IdsMatchTitles(notes: seq<Note>) {
    forall i :: 0 <= i < |notes| ==> notes[i].id == notes[i].title
  }

  /** No two records share an id. */
  predicate DistinctIds(notes: seq<Note>) {
    forall i, j :: 0 <= i < j < |notes| ==> notes[i].id != notes[j].id
  }

  /** No two titles are equal case-insensitively. */
  predicate TitlesDistinct(notes: seq<Note>) {
    forall i, j :: 0 <= i < j < |notes| ==> Lower(notes[i].title) != Lower(notes[j].title)
  }

  // ---------------------------------------------------------- projections

  /** `notes.find(n => n.id === id)`: the first record with that id. */
  function Find(notes: seq<Note>, id: string): (r: Option<Note>)
    ensures r.Some? ==> r.value.id == id && r.value in notes
    ensures r.Some? ==> exists i :: 0 <= i < |notes| && notes[i] == r.value && forall j :: 0 <= j < i ==> notes[j].id != id
    ensures r.None? ==> forall i :: 0 <= i < |notes| ==> notes[i].id != id
  {
    if notes == [] then None
    else if notes[0].id == id then
      Some(notes[0])
    else
      assert forall k :: 0 <= k < |notes[1..]| ==> notes[1..][k] == notes[k + 1];
      Find(notes[1..], id)
  }

  /** `activeNote`: the record of the active id, if any. */
  function ActiveNote(s: AppState): (r: Option<Note>)
    ensures s.active.None? ==> r.None?
    ensures s.active.Some? ==> r == Find(s.notes, s.active.value)
    ensures r.Some? ==> r.value in s.notes && Some(r.value.id) == s.active
    ensures s.active.Some? && r.None? ==> forall i :: 0 <= i < |s.notes| ==> s.notes[i].id != s.active.value
  {
    match s.active
    case None => None
    case Some(a) => Find(s.notes, a)
  }

  /** `openIds.map(find).filter(Boolean)`: the records of the open tabs in tab
      order, skipping ids with no record. */
  function OpenNotesOf(notes: seq<Note>, tabs: seq<string>): (r: seq<Note>)
    ensures |r| <= |tabs|
    ensures forall i :: 0 <= i < |r| ==> r[i] in notes && r[i].id in tabs
  {
    if tabs == [] then []
    else
      var rest := OpenNotesOf(notes, tabs[1..]);
      match Find(notes, tabs[0])
      case None => rest
      case Some(n) => [n] + rest
  }

  function OpenNotes(s: AppState): seq<Note> {
    OpenNotesOf(s.notes, s.openIds)
  }

  /** When every tab has a record, the open notes are one per tab, in tab order. */
  lemma {:induction false} OpenNotesFollowTabs(notes: seq<Note>, tabs: seq<string>)
    requires forall i :: 0 <= i < |tabs| ==> Find(notes, tabs[i]).Some?
    ensures |OpenNotesOf(notes, tabs)| == |tabs|
    ensures forall i :: 0 <= i < |tabs| ==> OpenNotesOf(notes, tabs)[i].id == tabs[i]
  {
    if tabs != [] {
      var rest := tabs[1..];
      forall i | 0 <= i < |rest| ensures Find(notes, rest[i]).Some? {
        assert rest[i] == tabs[i + 1];
      }
      OpenNotesFollowTabs(notes, rest);
      var r, tail := OpenNotesOf(notes, tabs), OpenNotesOf(notes, rest);
      assert r == [Find(notes, tabs[0]).value] + tail;
      forall i | 0 <= i < |tabs| ensures r[i].id == tabs[i] {
        if i > 0 {
          assert r[i] == tail[i - 1] && rest[i - 1] == tabs[i];
        }
      }
    }
  }

  /** The open notes of one tab: its record if it has one, else nothing. */
  lemma OpenNotesOfOne(notes: seq<Note>, t: string)
    ensures Find(notes, t).Some? ==> OpenNotesOf(notes, [t]) == [Find(notes, t).value]
    ensures Find(notes, t).None? ==> OpenNotesOf(notes, [t]) == []
  {
    assert [t][1..] == [];
  }

  /** The open notes of `a + b` are those of `a` followed by those of `b`, so
      with OpenNotesOfOne they are the records of the tabs that have one, in
      tab order. */
  lemma {:induction false} OpenNotesAppend(notes: seq<Note>, a: seq<string>, b: seq<string>)
    ensures OpenNotesOf(notes, a + b) == OpenNotesOf(notes, a) + OpenNotesOf(notes, b)
  {
    if a == [] {
      assert a + b == b;
    } else {
      assert (a + b)[0] == a[0];
      assert (a + b)[1..] == a[1..] + b;
      OpenNotesAppend(notes, a[1..], b);
    }
  }

  /** A tab whose id has no record is dropped from the open notes. */
  lemma {:induction false} OpenNotesDropMissing(notes: seq<Note>, tabs: seq<string>)
    requires forall i :: 0 <= i < |tabs| ==> Find(notes, tabs[i]).None?
    ensures OpenNotesOf(notes, tabs) == []
  {
    if tabs != [] {
      OpenNotesDropMissing(notes, tabs[1..]);
    }
  }

  // ------------------------------------------------------- loading

  /** The state once `getNotes()` has answered: the listed notes, no tab open. */
  function Loaded(loaded: seq<Note>): (s: AppState)
    ensures s.notes == loaded && s.openIds == [] && s.active.None?
    ensures ActiveIsOpen(s)
  {
    AppState(loaded, [], None, false)
  }

  /** Every note the repository lists has its title as id, so the loaded state
      starts with ids matching titles. */
  lemma ListedNotesMatchTitles(m: Vault.Main, io: Vault.ListIo, codec: Vault.Codec)
    requires !io.listingFails ==> Vault.Enumerates(io.entries, Vault.EnsureDir(m.disk, m.vault).dirs[m.vault])
    ensures IdsMatchTitles(Loaded(Vault.GetNotes(m, io, codec).1).notes)
  {
    var notes := Vault.GetNotes(m, io, codec).1;
    assert forall i :: 0 <= i < |notes| ==> notes[i] in notes;
  }

  // ------------------------------------------------------- tabs

  /** `handleSelectNote`: open the tab if absent, never reorder, activate it. */
  function SelectNote(s: AppState, id: string): (r: AppState)
    ensures r.notes == s.notes && r.active == Some(id) && !r.showSettings
    ensures id in r.openIds
    ensures |r.openIds| == |s.openIds| + (if id in s.openIds then 0 else 1)
    ensures forall i :: 0 <= i < |s.openIds| ==> r.openIds[i] == s.openIds[i]
    ensures ActiveIsOpen(r)
  {
    var tabs := if id in s.openIds then s.openIds else s.openIds + [id];
    s.(openIds := tabs, active := Some(id), showSettings := false)
  }

  /** Selecting keeps the tabs free of duplicates. */
  lemma SelectKeepsTabsDistinct(s: AppState, id: string)
    requires forall i, j :: 0 <= i < j < |s.openIds| ==> s.openIds[i] != s.openIds[j]
    ensures var t := SelectNote(s, id).openIds; forall i, j :: 0 <= i < j < |t| ==> t[i] != t[j]
  {
  }

  /** `handleCloseTab`: drop the id from the tabs; if it was active, the last
      remaining tab (or none) becomes active, otherwise the active id stays. */
  function CloseTab(s: AppState, id: string): (r: AppState)
    ensures r.notes == s.notes && r.showSettings == s.showSettings
    ensures id !in r.openIds && IsSubseq(r.openIds, s.openIds)
    ensures forall i :: 0 <= i < |s.openIds| && s.openIds[i] != id ==> s.openIds[i] in r.openIds
    ensures forall t :: t != id ==> multiset(r.openIds)[t] == multiset(s.openIds)[t]
    ensures s.active == Some(id) ==>
      r.active == (if |r.openIds| > 0 then Some(r.openIds[|r.openIds| - 1]) else None)
    ensures s.active != Some(id) ==> r.active == s.active
    ensures ActiveIsOpen(s) ==> ActiveIsOpen(r)
  {
    var tabs := Filter(s.openIds, (t: string) => t != id);
    forall i | 0 <= i < |s.openIds| && s.openIds[i] != id ensures s.openIds[i] in tabs {
      FilterKeeps(s.openIds, (t: string) => t != id, s.openIds[i]);
    }
    forall t | t != id ensures multiset(tabs)[t] == multiset(s.openIds)[t] {
      FilterCount(s.openIds, (t: string) => t != id, t);
    }
    var active := if s.active == Some(id) then (if |tabs| > 0 then Some(tabs[|tabs| - 1]) else None) else s.active;
    s.(openIds := tabs, active := active)
  }

  /** Ctrl+W: close the active tab, but only when the active id is truthy, so
      an active note whose id is the empty string is not closed. */
  function CloseActiveTab(s: AppState): (r: AppState)
    ensures s.active.Some? && s.active.value != "" ==> r == CloseTab(s, s.active.value)
    ensures s.active.Some? && s.active.value != "" ==> s.active.value !in r.openIds
    ensures s.active.None? || s.active.value == "" ==> r == s
    ensures r.notes == s.notes
    ensures ActiveIsOpen(s) ==> ActiveIsOpen(r)
  {
    match s.active
    case Some(a) => if a != "" then CloseTab(s, a) else s
    case None => s
  }

  // ------------------------------------------------------- create

  /** The taken titles, lower-cased: `new Set(notes.map(n => n.title.toLowerCase()))`. */
  function TakenTitles(notes: seq<Note>): set<string> {
    set i | 0 <= i < |notes| :: Lower(notes[i].title)
  }

  /** `${base} ${n}`. */
  function Candidate(base: string, n: nat): string {
    base + " " + Decimal(n)
  }

  /** Lower-casing leaves the space and the digits of a candidate alone. */
  lemma CandidateLower(base: string, n: nat)
    ensures Lower(Candidate(base, n)) == Lower(base) + " " + Decimal(n)
  {
    LowerAppend(base, " " + Decimal(n));
    LowerFixed(" " + Decimal(n));
    assert base + " " + Decimal(n) == base + (" " + Decimal(n));
  }

  /** Different counters give candidates that differ even case-insensitively. */
  lemma CandidateLowerInjective(base: string, m: nat, n: nat)
    requires Lower(Candidate(base, m)) == Lower(Candidate(base, n))
    ensures m == n
  {
    CandidateLower(base, m);
    CandidateLower(base, n);
    var k := |Lower(base)| + 1;
    assert Decimal(m) == Lower(Candidate(base, m))[k..];
    assert Decimal(n) == Lower(Candidate(base, n))[k..];
    DecimalInjective(m, n);
  }

  /** The lower-case form of the n-th candidate, as the search tests it. */
  function Probe(base: string, n: nat): string {
    Lower(Candidate(base, n))
  }

  /** The probes for the counters 1 .. k-1. */
  ghost function ProbesBelow(base: string, k: nat): set<string>
    decreases k
  {
    if k <= 1 then {} else ProbesBelow(base, k - 1) + {Probe(base, k - 1)}
  }

  lemma {:induction false} ProbesBelowFresh(base: string, k: nat, n: nat)
    requires n >= k
    ensures Probe(base, n) !in ProbesBelow(base, k)
    decreases k
  {
    if k > 1 {
      ProbesBelowFresh(base, k - 1, n);
      if Probe(base, n) == Probe(base, k - 1) {
        CandidateLowerInjective(base, n, k - 1);
      }
    }
  }

  lemma {:induction false} ProbesBelowSize(base: string, k: nat)
    requires k >= 1
    ensures |ProbesBelow(base, k)| == k - 1
    decreases k
  {
    if k > 1 {
      ProbesBelowSize(base, k - 1);
      ProbesBelowFresh(base, k - 1, k - 1);
    }
  }

  lemma {:induction false} ProbesBelowHas(base: string, k: nat, m: nat)
    requires 1 <= m < k
    ensures Probe(base, m) in ProbesBelow(base, k)
    decreases k
  {
    if m < k - 1 {
      ProbesBelowHas(base, k - 1, m);
    }
  }

  /** The base title is never a probe: every probe is longer. */
  lemma {:induction false} BaseNotProbed(base: string, k: nat)
    ensures Lower(base) !in ProbesBelow(base, k)
    decreases k
  {
    if k > 1 {
      BaseNotProbed(base, k - 1);
      CandidateLower(base, k - 1);
      assert |Probe(base, k - 1)| > |Lower(base)|;
    }
  }

  /** The default-title search of `createNewNote`: `base` when it is free,
      otherwise `${base} ${n}` for the smallest n >= 1 whose lower-case form is
      free. `suffix` is that n, or 0 when `base` is used. The search ends:
      each probe that fails is a distinct taken title, so at most |taken|
      probes fail. */
  method UntitledTitle(base: string, taken: set<string>) returns (title: string, suffix: nat)
    ensures Lower(title) !in taken
    ensures Lower(base) !in taken ==> title == base && suffix == 0
    ensures Lower(base) in taken ==>
      && suffix >= 1 && title == Candidate(base, suffix)
      && forall m :: 1 <= m < suffix ==> Probe(base, m) in taken
    ensures suffix <= |taken|
  {
    title, suffix := base, 0;
    if Lower(base) in taken {
      suffix := 1;
      title := Candidate(base, 1);
      while Lower(title) in taken
        invariant suffix >= 1 && title == Candidate(base, suffix)
        invariant ProbesBelow(base, suffix) <= taken
        decreases |taken| - |ProbesBelow(base, suffix)|
      {
        ProbesBelowFresh(base, suffix, suffix);
        ProbesBelowSize(base, suffix);
        suffix := suffix + 1;
        title := Candidate(base, suffix);
        ProbesBelowSize(base, suffix);
        SubsetCard(ProbesBelow(base, suffix), taken);
      }
      forall m | 1 <= m < suffix ensures Probe(base, m) in taken {
        ProbesBelowHas(base, suffix, m);
      }
      BaseNotProbed(base, suffix);
      ProbesBelowSize(base, suffix);
      SubsetCard(ProbesBelow(base, suffix) + {Lower(base)}, taken);
    }
  }

  /** A subset is no larger than its superset. */
  lemma {:induction false} SubsetCard<T>(a: set<T>, b: set<T>)
    requires a <= b
    ensures |a| <= |b|
    decreases a
  {
    if a != {} {
      var x :| x in a;
      SubsetCard(a - {x}, b - {x});
    }
  }

  /** `createNewNote`: with no main process nothing happens; otherwise a note
      with a fresh default title, empty content, no tags and an empty icon is
      saved, put first in the list, opened as the last tab and activated. */
  method CreateNewNote(s: AppState, backend: bool, base: string, now: int) returns (r: Step)
    ensures !backend ==> r == Step(s, NoCall)
    ensures backend ==>
      && |r.state.notes| == |s.notes| + 1 && r.state.notes[1..] == s.notes
      && var n := r.state.notes[0];
         && n == Note(n.title, n.title, "", now, now, Some(""), Some([]))
         && Lower(n.title) !in TakenTitles(s.notes)
         && (Lower(base) !in TakenTitles(s.notes) ==> n.title == base)
         && r.state.openIds == s.openIds + [n.id]
         && r.state.active == Some(n.id) && !r.state.showSettings
         && r.call == SaveCall(n)
    ensures backend && Lower(base) in TakenTitles(s.notes) ==>
      exists k :: (k >= 1 && r.state.notes[0].title == Candidate(base, k)
                   && forall m :: 1 <= m < k ==> Probe(base, m) in TakenTitles(s.notes))
    ensures backend ==> ActiveIsOpen(r.state)
    ensures backend && TitlesDistinct(s.notes) ==> TitlesDistinct(r.state.notes)
    ensures backend && IdsMatchTitles(s.notes) ==> IdsMatchTitles(r.state.notes)
  {
    if !backend {
      return Step(s, NoCall);
    }
    var title, suffix := UntitledTitle(base, TakenTitles(s.notes));
    var n := Note(title, title, "", now, now, Some(""), Some([]));
    var notes := [n] + s.notes;
    forall i, j | 0 <= i < j < |notes| && TitlesDistinct(s.notes)
      ensures Lower(notes[i].title) != Lower(notes[j].title)
    {
      if i == 0 {
        assert notes[j] == s.notes[j - 1];
        assert Lower(s.notes[j - 1].title) in TakenTitles(s.notes);
      } else {
        assert notes[i] == s.notes[i - 1] && notes[j] == s.notes[j - 1];
      }
    }
    r := Step(AppState(notes, s.openIds + [title], Some(title), false), SaveCall(n));
    if Lower(base) in TakenTitles(s.notes) {
      assert r.state.notes[0].title == Candidate(base, suffix);
    }
  }

  // ------------------------------------------------------- update

  /** `updateNote`: the record(s) with the edited note's id are replaced by the
      edited note, with `updatedAt` refreshed and its id set to its title. When
      the title differs from the id this is a rename: every tab with the old id
      now shows the new one and the new id becomes active. The save request
      carries the OLD id, so the repository moves the file. */
  function UpdateNote(s: AppState, u: Note, backend: bool, now: int): (r: Step)
    ensures r.state.showSettings == s.showSettings
    ensures |r.state.notes| == |s.notes|
    ensures forall i :: 0 <= i < |s.notes| ==>
      r.state.notes[i] == if s.notes[i].id == u.id then u.(id := u.title, updatedAt := now) else s.notes[i]
    ensures u.id == u.title ==> r.state.openIds == s.openIds && r.state.active == s.active
    ensures u.id != u.title ==>
      && |r.state.openIds| == |s.openIds|
      && (forall i :: 0 <= i < |s.openIds| ==>
            r.state.openIds[i] == if s.openIds[i] == u.id then u.title else s.openIds[i])
      && r.state.active == Some(u.title)
    ensures r.call == if backend then SaveCall(u.(updatedAt := now)) else NoCall
  {
    var saved := u.(updatedAt := now);
    var rec := saved.(id := u.title);
    var notes := seq(|s.notes|, i requires 0 <= i < |s.notes| => if s.notes[i].id == u.id then rec else s.notes[i]);
    var call := if backend then SaveCall(saved) else NoCall;
    if u.id != u.title then
      var tabs := seq(|s.openIds|, i requires 0 <= i < |s.openIds| => if s.openIds[i] == u.id then u.title else s.openIds[i]);
      Step(s.(notes := notes, openIds := tabs, active := Some(u.title)), call)
    else
      Step(s.(notes := notes), call)
  }

  /** After a rename no record and no tab carries the old id. */
  lemma RenameRetiresOldId(s: AppState, u: Note, backend: bool, now: int)
    requires u.id != u.title
    ensures var t := UpdateNote(s, u, backend, now).state;
      (forall i :: 0 <= i < |t.notes| ==> t.notes[i].id != u.id) && u.id !in t.openIds
  {
    var t := UpdateNote(s, u, backend, now).state;
    forall i | 0 <= i < |t.openIds| ensures t.openIds[i] != u.id {
    }
  }

  /** Renaming the active note keeps the active id among the open tabs. */
  lemma RenameActiveKeepsActiveOpen(s: AppState, u: Note, backend: bool, now: int)
    requires ActiveIsOpen(s) && s.active == Some(u.id)
    ensures ActiveIsOpen(UpdateNote(s, u, backend, now).state)
  {
    var t := UpdateNote(s, u, backend, now).state;
    var k :| 0 <= k < |s.openIds| && s.openIds[k] == u.id;
    assert t.openIds[k] == u.title;
  }

  /** Updates keep every record's id equal to its title. */
  lemma UpdateKeepsIdsMatchTitles(s: AppState, u: Note, backend: bool, now: int)
    requires IdsMatchTitles(s.notes)
    ensures IdsMatchTitles(UpdateNote(s, u, backend, now).state.notes)
  {
  }

  /** A rename onto another note's title makes two records share an id. */
  lemma RenameCanDuplicateIds()
    ensures var a := Note("a", "a", "", 0, 0, None, None);
      var b := Note("b", "b", "", 0, 0, None, None);
      var s := AppState([a, b], [], None, false);
      DistinctIds(s.notes) && !DistinctIds(UpdateNote(s, b.(title := "a"), false, 1).state.notes)
  {
    var a := Note("a", "a", "", 0, 0, None, None);
    var b := Note("b", "b", "", 0, 0, None, None);
    var s := AppState([a, b], [], None, false);
    var t := UpdateNote(s, b.(title := "a"), false, 1).state;
    assert t.notes[0].id == "a" && t.notes[1].id == "a";
  }

  /** End to end: the save request of a rename, handled by the repository with
      a rename and a write that succeed, leaves the note under its new file
      name only. */
  lemma RenameReachesDisk(s: AppState, u: Note, now: int, m: Vault.Main, codec: Vault.Codec)
    requires u.id != u.title && u.id != ""
    requires m.vault in m.disk.dirs && Vault.FileName(u.id) in m.disk.dirs[m.vault]
    ensures var c := UpdateNote(s, u, true, now).call;
      && c.SaveCall?
      && var d' := Vault.SaveNote(m, c.note, codec, Vault.SaveIo(true, true)).0.disk.dirs[m.vault];
         && Vault.FileName(u.id) !in d'
         && Vault.FileName(u.title) in d'
         && d'[Vault.FileName(u.title)] == Vault.Payload(u, codec)
  {
  }

  /** A title committed in the editor for a note whose id is its title turns
      into a rename: the save request keeps the old id and carries the new
      title, and the new title becomes the active id. */
  lemma CommittedTitleRenames(s: AppState, n: Note, localTitle: string, ev: Editor.TitleEvent, now: int)
    requires n.id == n.title
    requires Editor.CommitTitle(Some(n), localTitle, ev).Some?
    ensures var u := Editor.CommitTitle(Some(n), localTitle, ev).value;
      var t := UpdateNote(s, u, true, now);
      && u.id != u.title
      && t.state.active == Some(localTitle)
      && t.call.SaveCall? && t.call.note.id == n.id && t.call.note.title == localTitle
  {
  }

  /** A content edit from the editor is an in-place update: tabs and the active id stay. */
  lemma ContentEditInPlace(s: AppState, n: Note, markdown: string, backend: bool, now: int)
    requires n.id == n.title
    requires Editor.ContentChange(Some(n), markdown).Some?
    ensures var t := UpdateNote(s, Editor.ContentChange(Some(n), markdown).value, backend, now).state;
      t.openIds == s.openIds && t.active == s.active
  {
  }

  // ------------------------------------------------------- delete

  /** `deleteNote`: an unknown id or an unconfirmed delete changes nothing;
      otherwise the repository is asked to delete the note's title, every
      record with the id is removed and its tab, if open, is closed. */
  function DeleteNote(s: AppState, noteId: string, confirmed: bool, backend: bool): (r: Step)
    ensures Find(s.notes, noteId).None? || !confirmed ==> r == Step(s, NoCall)
    ensures Find(s.notes, noteId).Some? && confirmed ==>
      && r.call == (if backend then DeleteCall(Find(s.notes, noteId).value.title) else NoCall)
      && (forall i :: 0 <= i < |r.state.notes| ==> r.state.notes[i].id != noteId)
      && IsSubseq(r.state.notes, s.notes)
      && (forall i :: 0 <= i < |s.notes| && s.notes[i].id != noteId ==> s.notes[i] in r.state.notes)
      && (forall x: Note :: x.id != noteId ==> multiset(r.state.notes)[x] == multiset(s.notes)[x])
      && (noteId in s.openIds ==> r.state == CloseTab(s.(notes := r.state.notes), noteId))
      && (noteId !in s.openIds ==> r.state.openIds == s.openIds && r.state.active == s.active)
      && r.state.showSettings == s.showSettings
      && noteId !in r.state.openIds
    ensures ActiveIsOpen(s) ==> ActiveIsOpen(r.state)
  {
    match Find(s.notes, noteId)
    case None => Step(s, NoCall)
    case Some(n) =>
      if !confirmed then Step(s, NoCall)
      else
        var p := (x: Note) => x.id != noteId;
        var notes := Filter(s.notes, p);
        forall i | 0 <= i < |s.notes| && s.notes[i].id != noteId ensures s.notes[i] in notes {
          FilterKeeps(s.notes, p, s.notes[i]);
        }
        forall x: Note | x.id != noteId ensures multiset(notes)[x] == multiset(s.notes)[x] {
          FilterCount(s.notes, p, x);
        }
        var s1 := s.(notes := notes);
        var s2 := if noteId in s.openIds then CloseTab(s1, noteId) else s1;
        Step(s2, if backend then DeleteCall(n.title) else NoCall)
  }
}

=== FILE: editor.dfy ===
/** The note editor's small rules: single-field edits, icon removal, tag
    entry and removal, when a title or content change is emitted, and the
    title-size cycle. Each rule returns the edited note it hands to
    `onUpdateNote`, or None when it emits nothing. */
module Editor {
  import opened Options
  import opened Text
  import opened Seqs
  import opened Notes

  /** The field and value of one `onEditField(key, value)` call. */
  datatype Field =
    | Title(title: string)
    | Content(content: string)
    | Icon(icon: Option<string>)
    | Tags(tags: Option<seq<string>>)

  /** `{ ...activeNote, [key]: value }`: exactly one field changes. */
  function EditField(n: Note, f: Field): (r: Note)
    ensures r.id == n.id && r.createdAt == n.createdAt && r.updatedAt == n.updatedAt
    ensures f.Title? ==> r.title == f.title
    ensures f.Content? ==> r.content == f.content
    ensures f.Icon? ==> r.icon == f.icon
    ensures f.Tags? ==> r.tags == f.tags
    ensures !f.Title? ==> r.title == n.title
    ensures !f.Content? ==> r.content == n.content
    ensures !f.Icon? ==> r.icon == n.icon
    ensures !f.Tags? ==> r.tags == n.tags
  {
    match f
    case Title(t) => n.(title := t)
    case Content(c) => n.(content := c)
    case Icon(i) => n.(icon := i)
    case Tags(ts) => n.(tags := ts)
  }

  /** Setting a field and then the same field again keeps only the second value. */
  lemma EditFieldOverrides(n: Note, f: Field, g: Field)
    requires f.Title? == g.Title? && f.Content? == g.Content? && f.Icon? == g.Icon?
    ensures EditField(EditField(n, f), g) == EditField(n, g)
  {
  }

  /** `removeIcon`: the icon becomes undefined, everything else stays. */
  function RemoveIcon(n: Note): (r: Note)
    ensures r.icon.None? && r == n.(icon := None)
  {
    EditField(n, Icon(None))
  }

  /** Picking an emoji and then removing the icon is the same as removing it. */
  lemma RemoveIconAfterPick(n: Note, emoji: string)
    ensures RemoveIcon(EditField(n, Icon(Some(emoji)))) == RemoveIcon(n)
  {
  }

  /** What pressing Enter in the tag box does: the tag list to emit, if any,
      and whether the box is cleared. */
  datatype TagEntry = TagEntry(edit: Option<seq<string>>, clearInput: bool)

  /** Enter in the tag box: the trimmed input, when non-empty and not already
      a tag, is appended (missing tags count as []); a non-empty input always
      clears the box. */
  function AddTag(tags: Option<seq<string>>, input: string): (r: TagEntry)
    ensures r.clearInput <==> !AllSpace(input)
    ensures r.edit.Some? <==> !AllSpace(input) && Trim(input) !in tags.GetOr([])
    ensures r.edit.Some? ==> r.edit.value == tags.GetOr([]) + [Trim(input)]
  {
    TrimEmptyIff(input);
    var v := Trim(input);
    if v == "" then TagEntry(None, false)
    else
      var current := tags.GetOr([]);
      if v !in current then TagEntry(Some(current + [v]), true) else TagEntry(None, true)
  }

  /** Adding tags never introduces a duplicate. */
  lemma AddTagKeepsDistinct(tags: seq<string>, input: string)
    requires forall i, j :: 0 <= i < j < |tags| ==> tags[i] != tags[j]
    ensures var r := AddTag(Some(tags), input).edit;
      r.Some? ==> forall i, j :: 0 <= i < j < |r.value| ==> r.value[i] != r.value[j]
  {
  }

  /** The filter test of the remove button: every tag but `tag`. */
  function OtherThan(tag: string): string -> bool {
    (t: string) => t != tag
  }

  /** The tag's remove button: `tags?.filter(t => t !== tag)` deletes every
      occurrence and keeps the rest in order; missing tags stay missing. */
  function RemoveTag(tags: Option<seq<string>>, tag: string): (r: Option<seq<string>>)
    ensures tags.None? ==> r.None?
    ensures tags.Some? ==> r.Some? && tag !in r.value && IsSubseq(r.value, tags.value)
    ensures tags.Some? ==> forall t :: t != tag ==> multiset(r.value)[t] == multiset(tags.value)[t]
  {
    match tags
    case None => None
    case Some(ts) =>
      var p := OtherThan(tag);
      var r := Filter(ts, p);
      assert forall t :: t != tag ==> multiset(r)[t] == multiset(ts)[t] by {
        forall t | t != tag ensures multiset(r)[t] == multiset(ts)[t] {
          FilterCount(ts, p, t);
        }
      }
      Some(r)
  }

  /** Removing a tag just added restores the list. */
  lemma AddThenRemove(tags: seq<string>, input: string)
    requires !AllSpace(input) && Trim(input) !in tags
    ensures AddTag(Some(tags), input).edit.Some?
    ensures RemoveTag(AddTag(Some(tags), input).edit, Trim(input)) == Some(tags)
  {
    var v := Trim(input);
    var e := AddTag(Some(tags), input).edit;
    assert e == Some(tags + [v]);
    var p := OtherThan(v);
    assert RemoveTag(e, v) == Some(Filter(tags + [v], p));
    FilterAppend(tags, [v], p);
    assert forall i :: 0 <= i < |tags| ==> p(tags[i]);
    FilterAll(tags, p);
    assert !p(v) && [v][1..] == [];
    assert Filter([v], p) == [];
    assert Filter(tags + [v], p) == tags + [] == tags;
  }

  /** The events of the title box. */
  datatype TitleEvent = Blur | Enter | OtherKey

  /** `handleTitleBlur` / Enter: the local title is committed only on blur or
      Enter, and only when it differs from the note's title. */
  function CommitTitle(active: Option<Note>, localTitle: string, ev: TitleEvent): (r: Option<Note>)
    ensures r.Some? <==> !ev.OtherKey? && active.Some? && localTitle != active.value.title
    ensures r.Some? ==> r.value == active.value.(title := localTitle)
  {
    if !ev.OtherKey? && active.Some? && localTitle != active.value.title then
      Some(EditField(active.value, Title(localTitle)))
    else None
  }

  /** The editor's `onUpdate`: a content update is emitted only when the
      editor's markdown differs from the note's content. */
  function ContentChange(active: Option<Note>, markdown: string): (r: Option<Note>)
    ensures r.Some? <==> active.Some? && markdown != active.value.content
    ensures r.Some? ==> r.value == active.value.(content := markdown)
  {
    if active.Some? && markdown != active.value.content then
      Some(EditField(active.value, Content(markdown)))
    else None
  }

  /** Once the emitted content is the note's, the same markdown emits nothing more. */
  lemma ContentChangeSettles(active: Option<Note>, markdown: string)
    ensures var r := ContentChange(active, markdown);
      r.Some? ==> ContentChange(r, markdown).None?
  {
  }

  // ------------------------------------------------------- title size

  /** JavaScript's `%`, which truncates toward zero: the remainder takes the
      sign of the dividend. */
  function JsRem(a: int, b: int): (r: int)
    requires b > 0
    ensures a >= 0 ==> r == a % b && 0 <= r < b
    ensures a < 0 ==> -b < r <= 0
  {
    if a >= 0 then a % b else -((-a) % b)
  }

  /** Truncation is symmetric: negating the dividend negates the remainder. */
  lemma JsRemOdd(a: int, b: int)
    requires b > 0
    ensures JsRem(-a, b) == -JsRem(a, b)
  {
    if a < 0 {
      assert JsRem(-a, b) == (-a) % b;
    } else if a > 0 {
      assert JsRem(-a, b) == -(a % b);
    }
  }

  /** `toggleTitleSize`: `(prev + 1) % 3`. */
  function ToggleTitleSize(size: int): (r: int)
    ensures -2 <= r <= 2
    ensures size >= -1 ==> 0 <= r <= 2
  {
    JsRem(size + 1, 3)
  }

  /** `getTitleClass`: sizes 0, 1, 2 map to the three classes; any other value
      falls back to "text-4xl". */
  function TitleClass(size: int): (r: string)
    ensures 0 <= size <= 2 ==> r == ["text-3xl", "text-4xl", "text-5xl"][size]
    ensures !(0 <= size <= 2) ==> r == "text-4xl"
  {
    if size == 0 then "text-3xl"
    else if size == 2 then "text-5xl"
    else "text-4xl"
  }

  /** From a size in 0..2 the toggle cycles 0 -> 1 -> 2 -> 0, stays in range and
      shows the three classes in turn. */
  lemma TitleSizeCycle(size: int)
    requires 0 <= size <= 2
    ensures ToggleTitleSize(size) == (if size == 2 then 0 else size + 1)
    ensures ToggleTitleSize(ToggleTitleSize(ToggleTitleSize(size))) == size
    ensures TitleClass(size) == ["text-3xl", "text-4xl", "text-5xl"][size]
  {
  }

  /** A stored size below -1 keeps the toggle negative, and every negative
      size shows the default class. */
  lemma NegativeTitleSize(size: int)
    requires size < -1
    ensures ToggleTitleSize(size) <= 0
    ensures TitleClass(size) == "text-4xl"
  {
  }

  /** A stored size of -5 toggles to -1, which still shows the default class. */
  lemma MinusFiveTogglesToMinusOne()
    ensures ToggleTitleSize(-5) == -1 && TitleClass(-1) == "text-4xl"
  {
  }
}

=== FILE: language.dfy ===
/** The translation lookup `t` and the choice and persistence of the UI
    language. The translation tables themselves are a parameter. */
module Language {
  import opened Options

  /** language -> key -> text. */
  type Tables = map<string, map<string, string>>

  /** The browser's local storage. */
  type Storage = map<string, string>

  const StorageKey: string := "orbital-language"
  const DefaultLanguage: string := "es"

  /** `translations[lang][key]` where the language exists; a missing key reads
      as the empty string, which is just as falsy. */
  function Entry(tables: Tables, lang: string, key: string): string
    requires lang in tables
  {
    if key in tables[lang] then tables[lang][key] else ""
  }

  /** `t(key)`: the current language's text if non-empty, else the Spanish
      text if non-empty, else the key itself. A language with no table makes
      the lookup throw (None). */
  function T(tables: Tables, lang: string, key: string): (r: Option<string>)
    requires DefaultLanguage in tables
    ensures r.Some? <==> lang in tables
    ensures lang in tables && Entry(tables, lang, key) != "" ==> r == Some(Entry(tables, lang, key))
    ensures lang in tables && Entry(tables, lang, key) == "" && Entry(tables, DefaultLanguage, key) != "" ==>
      r == Some(Entry(tables, DefaultLanguage, key))
    ensures lang in tables && Entry(tables, lang, key) == "" && Entry(tables, DefaultLanguage, key) == "" ==>
      r == Some(key)
    ensures r.Some? && key != "" ==> r.value != ""
  {
    if lang !in tables then None
    else
      var own := Entry(tables, lang, key);
      if own != "" then Some(own)
      else
        var es := Entry(tables, DefaultLanguage, key);
        if es != "" then Some(es) else Some(key)
  }

  /** The lookup returns one of three things: the own text, the Spanish text or the key. */
  lemma LookupSources(tables: Tables, lang: string, key: string)
    requires DefaultLanguage in tables && lang in tables
    ensures var r := T(tables, lang, key).value;
      r == Entry(tables, lang, key) || r == Entry(tables, DefaultLanguage, key) || r == key
  {
  }

  /** The initial language: the stored value if non-empty, else 'es'. */
  function InitialLanguage(st: Storage): (lang: string)
    ensures StorageKey in st && st[StorageKey] != "" ==> lang == st[StorageKey]
    ensures !(StorageKey in st && st[StorageKey] != "") ==> lang == DefaultLanguage
    ensures lang != ""
  {
    if StorageKey in st && st[StorageKey] != "" then st[StorageKey] else DefaultLanguage
  }

  /** The effect on `language`: store the current language. */
  function StoreLanguage(st: Storage, lang: string): (st': Storage)
    ensures StorageKey in st' && st'[StorageKey] == lang
    ensures st'.Keys == st.Keys + {StorageKey}
    ensures forall k :: k in st && k != StorageKey ==> k in st' && st'[k] == st[k]
  {
    st[StorageKey := lang]
  }

  /** A language chosen and stored is the one the next start picks. */
  lemma LanguageRoundTrip(st: Storage, lang: string)
    requires lang != ""
    ensures InitialLanguage(StoreLanguage(st, lang)) == lang
  {
  }

  /** The first render stores what it picked, so a start with nothing stored leaves 'es' stored. */
  lemma FirstStartStoresDefault(st: Storage)
    requires StorageKey !in st
    ensures var lang := InitialLanguage(st);
      lang == DefaultLanguage && StoreLanguage(st, lang)[StorageKey] == DefaultLanguage
  {
  }

  /** A stored language with no table makes every lookup throw. */
  lemma UnknownLanguageThrows(tables: Tables, st: Storage, key: string)
    requires DefaultLanguage in tables
    requires StorageKey in st && st[StorageKey] != "" && st[StorageKey] !in tables
    ensures T(tables, InitialLanguage(st), key).None?
  {
  }
}

=== FILE: notes.dfy ===
/** The note record shared by the main process and the renderer. */
module Notes {
  import opened Options

  /** A note. `id` is the filename stem the note was last persisted under and
      `title` the user-editable name that doubles as the desired stem; the
      timestamps are opaque integers; `icon` and `tags` may be absent. */
  datatype Note = Note(
    id: string,
    title: string,
    content: string,
    createdAt: int,
    updatedAt: int,
    icon: Option<string>,
    tags: Option<seq<string>>)
}

=== FILE: options.dfy ===
/** The optional value used throughout the model for JavaScript's `undefined`
    (an absent field, a lookup that finds nothing, a call that throws). */
module Options {

  datatype Option<+T> = None | Some(value: T) {

    /** The wrapped value, or `default` when there is none (JavaScript's `x ?? d`). */
    function GetOr(default: T): T {
      match this
      case Some(v) => v
      case None => default
    }
  }
}

=== FILE: seqs.dfy ===
/** Sequence helpers shared by the model: JavaScript's `Array.prototype.filter`
    and the subsequence relation that describes what it keeps. */
module Seqs {

  /** `a` can be obtained from `b` by deleting elements, keeping the order of the rest. */
  predicate IsSubseq<T(==)>(a: seq<T>, b: seq<T>)
    decreases |b|
  {
    a == [] || (|b| > 0 && ((a[0] == b[0] && IsSubseq(a[1..], b[1..])) || IsSubseq(a, b[1..])))
  }

  /** `s.filter(p)`: the elements satisfying `p`, in their original order. Each
      kept value appears as often as in `s`; nothing failing `p` is kept. */
  function Filter<T(==)>(s: seq<T>, p: T -> bool): (r: seq<T>)
    ensures |r| <= |s|
    ensures IsSubseq(r, s)
    ensures forall i :: 0 <= i < |r| ==> p(r[i])
  {
    if s == [] then []
    else
      var rest := Filter(s[1..], p);
      if p(s[0]) then [s[0]] + rest else rest
  }

  /** A value satisfying `p` is kept as many times as it occurs in `s`. */
  lemma {:induction false} FilterCount<T>(s: seq<T>, p: T -> bool, x: T)
    requires p(x)
    ensures multiset(Filter(s, p))[x] == multiset(s)[x]
  {
    if s != [] {
      assert s == [s[0]] + s[1..];
      FilterCount(s[1..], p, x);
    }
  }

  /** Whatever satisfies `p` in `s` survives the filter. */
  lemma FilterKeeps<T>(s: seq<T>, p: T -> bool, x: T)
    requires x in s && p(x)
    ensures x in Filter(s, p)
  {
    FilterCount(s, p, x);
    assert multiset(s)[x] > 0;
  }

  /** A filter that rejects nothing returns its input. */
  lemma {:induction false} FilterAll<T>(s: seq<T>, p: T -> bool)
    requires forall i :: 0 <= i < |s| ==> p(s[i])
    ensures Filter(s, p) == s
  {
    if s != [] {
      FilterAll(s[1..], p);
    }
  }

  /** A filter commutes with concatenation. */
  lemma {:induction false} FilterAppend<T>(a: seq<T>, b: seq<T>, p: T -> bool)
    ensures Filter(a + b, p) == Filter(a, p) + Filter(b, p)
  {
    if a != [] {
      assert (a + b)[1..] == a[1..] + b;
      FilterAppend(a[1..], b, p);
    } else {
      assert a + b == b;
    }
  }

  /** Filters whose tests agree on the elements of `s` keep the same elements. */
  lemma {:induction false} FilterCongruent<T>(s: seq<T>, p: T -> bool, q: T -> bool)
    requires forall i :: 0 <= i < |s| ==> p(s[i]) == q(s[i])
    ensures Filter(s, p) == Filter(s, q)
  {
    if s != [] {
      FilterCongruent(s[1..], p, q);
    }
  }
}

=== FILE: sidebar.dfy ===
/** The sidebar's rules: the case-insensitive search filter, the app-icon
    fallback, the displayed title and the message shown for an empty list. */
module Sidebar {
  import opened Options
  import opened Text
  import opened Seqs
  import opened Notes

  /** The search test: the lower-cased query occurs in the lower-cased title
      or the lower-cased content. */
  predicate Matches(n: Note, query: string) {
    Contains(Lower(n.title), Lower(query)) || Contains(Lower(n.content), Lower(query))
  }

  function MatchesQuery(query: string): Note -> bool {
    (n: Note) => Matches(n, query)
  }

  /** `filteredNotes`: the notes that match, in list order; none that matches
      is dropped. */
  function FilteredNotes(notes: seq<Note>, query: string): (r: seq<Note>)
    ensures IsSubseq(r, notes)
    ensures forall i :: 0 <= i < |r| ==> Matches(r[i], query)
    ensures forall i :: 0 <= i < |notes| && Matches(notes[i], query) ==> notes[i] in r
    ensures forall n :: Matches(n, query) ==> multiset(r)[n] == multiset(notes)[n]
  {
    var r := Filter(notes, MatchesQuery(query));
    assert forall i :: 0 <= i < |notes| && Matches(notes[i], query) ==> notes[i] in r by {
      forall i | 0 <= i < |notes| && Matches(notes[i], query) ensures notes[i] in r {
        FilterKeeps(notes, MatchesQuery(query), notes[i]);
      }
    }
    forall n | Matches(n, query) ensures multiset(r)[n] == multiset(notes)[n] {
      FilterCount(notes, MatchesQuery(query), n);
    }
    r
  }

  /** The empty query matches every note, so the list is shown whole. */
  lemma EmptyQueryKeepsAll(notes: seq<Note>)
    ensures FilteredNotes(notes, "") == notes
  {
    forall i | 0 <= i < |notes| ensures MatchesQuery("")(notes[i]) {
      assert OccursAt(Lower(notes[i].title), Lower(""), 0);
    }
    FilterAll(notes, MatchesQuery(""));
  }

  /** Searching is case-insensitive: a query and its lower-case form select the same notes. */
  lemma SearchIgnoresCase(notes: seq<Note>, query: string)
    ensures FilteredNotes(notes, Lower(query)) == FilteredNotes(notes, query)
  {
    LowerIdempotent(query);
    FilterCongruent(notes, MatchesQuery(Lower(query)), MatchesQuery(query));
  }

  /** `IconMap`: the component each app-icon name shows. */
  function IconFor(name: string): Option<string> {
    match name
    case "rocket" => Some("Rocket")
    case "star" => Some("Star")
    case "zap" => Some("Zap")
    case "heart" => Some("Heart")
    case "globe" => Some("Globe")
    case "moon" => Some("Moon")
    case "sun" => Some("Sun")
    case "monitor" => Some("Monitor")
    case "cpu" => Some("Cpu")
    case "disc" => Some("Disc")
    case "cloud" => Some("Cloud")
    case "umbrella" => Some("Umbrella")
    case "anchor" => Some("Anchor")
    case "award" => Some("Award")
    case "briefcase" => Some("Briefcase")
    case "camera" => Some("Camera")
    case "cast" => Some("Cast")
    case "coffee" => Some("Coffee")
    case "compass" => Some("Compass")
    case "droplet" => Some("Droplet")
    case "eye" => Some("Eye")
    case "feather" => Some("Feather")
    case "film" => Some("Film")
    case "flag" => Some("Flag")
    case "flame" => Some("Flame")
    case "gift" => Some("Gift")
    case "hash" => Some("Hash")
    case "headphones" => Some("Headphones")
    case "image" => Some("Image")
    case "key" => Some("Key")
    case "layers" => Some("Layers")
    case "layout" => Some("Layout")
    case "lifebuoy" => Some("LifeBuoy")
    case "link" => Some("Link")
    case "lock" => Some("Lock")
    case "map" => Some("Map")
    case "mic" => Some("Mic")
    case "music" => Some("Music")
    case "package" => Some("Package")
    case "pen" => Some("Pen")
    case "phone" => Some("Phone")
    case "play" => Some("Play")
    case "printer" => Some("Printer")
    case "radio" => Some("Radio")
    case "save" => Some("Save")
    case "send" => Some("Send")
    case "server" => Some("Server")
    case "shield" => Some("Shield")
    case "shoppingbag" => Some("ShoppingBag")
    case "smartphone" => Some("Smartphone")
    case "speaker" => Some("Speaker")
    case "tag" => Some("Tag")
    case "terminal" => Some("Terminal")
    case "tool" => Some("Wrench")
    case "truck" => Some("Truck")
    case "tv" => Some("Tv")
    case "user" => Some("User")
    case "video" => Some("Video")
    case "voicemail" => Some("Voicemail")
    case "wifi" => Some("Wifi")
    case "watch" => Some("Watch")
    case _ => None
  }

  /** `IconMap[appIcon] || Rocket`: the mapped icon, else the rocket. */
  function ActiveIcon(appIcon: string): (r: string)
    ensures IconFor(appIcon).Some? ==> r == IconFor(appIcon).value
    ensures IconFor(appIcon).None? ==> r == "Rocket"
    ensures exists k :: IconFor(k) == Some(r)
  {
    assert IconFor("rocket") == Some("Rocket");
    IconFor(appIcon).GetOr("Rocket")
  }

  /** `note.title.trim() || t('untitled')`: a whitespace-only title shows the
      untitled label, any other title shows trimmed. */
  function DisplayTitle(title: string, untitled: string): (r: string)
    ensures AllSpace(title) ==> r == untitled
    ensures !AllSpace(title) ==> r == Trim(title) && r != ""
  {
    TrimEmptyIff(title);
    var t := Trim(title);
    if t != "" then t else untitled
  }

  /** The translation key shown in place of an empty list: "noNotesFound" while
      searching, "noNotes" otherwise; nothing when the list is not empty or
      the sidebar is collapsed. */
  function EmptyListMessage(filtered: seq<Note>, query: string, collapsed: bool): (r: Option<string>)
    ensures r.Some? <==> !collapsed && |filtered| == 0
    ensures r.Some? ==> r.value == (if query != "" then "noNotesFound" else "noNotes")
  {
    if !collapsed && |filtered| == 0 then
      Some(if query != "" then "noNotesFound" else "noNotes")
    else None
  }

  /** With no query, the empty-list message appears only for an empty vault. */
  lemma NoNotesOnlyWhenEmpty(notes: seq<Note>)
    ensures EmptyListMessage(FilteredNotes(notes, ""), "", false).Some? <==> notes == []
  {
    EmptyQueryKeepsAll(notes);
  }
}

=== FILE: text.dfy ===
/** The JavaScript string operations the application relies on, over
    `string` (= seq<char>): `toLowerCase` (restricted to ASCII letters),
    `trim`, `endsWith`, `indexOf`, `includes`, `replace` with a string
    pattern, and the decimal rendering of a counter in a template string. */
module Text {
  import opened Options

  // ---------------------------------------------------------------- case

  /** Lower-casing of one character; only the ASCII letters change. */
  function LowerChar(c: char): char {
    if 'A' <= c <= 'Z' then (c as int + 32) as char else c
  }

  /** `s.toLowerCase()` on the ASCII letters. */
  function Lower(s: string): (r: string)
    ensures |r| == |s|
    ensures forall i :: 0 <= i < |s| ==> r[i] == LowerChar(s[i])
  {
    seq(|s|, i requires 0 <= i < |s| => LowerChar(s[i]))
  }

  /** Lower-casing distributes over concatenation. */
  lemma LowerAppend(a: string, b: string)
    ensures Lower(a + b) == Lower(a) + Lower(b)
  {
    assert forall i :: 0 <= i < |a + b| ==> Lower(a + b)[i] == (Lower(a) + Lower(b))[i];
  }

  /** Lower-casing twice is lower-casing once. */
  lemma LowerIdempotent(s: string)
    ensures Lower(Lower(s)) == Lower(s)
  {
  }

  /** A string without ASCII capitals is its own lower-case form. */
  lemma LowerFixed(s: string)
    requires forall i :: 0 <= i < |s| ==> !('A' <= s[i] <= 'Z')
    ensures Lower(s) == s
  {
  }

  // ---------------------------------------------------------- whitespace

  /** The characters `String.prototype.trim` removes: the WhiteSpace and
      LineTerminator code points of ECMAScript (section 12.2 and 12.3 of ECMA-262). */
  predicate IsSpace(c: char) {
    var k := c as int;
    k == 9 || k == 10 || k == 11 || k == 12 || k == 13 || k == 32 || k == 160
    || k == 0x1680 || (0x2000 <= k <= 0x200A) || k == 0x2028 || k == 0x2029
    || k == 0x202F || k == 0x205F || k == 0x3000 || k == 0xFEFF
  }

  predicate AllSpace(s: string) {
    forall i :: 0 <= i < |s| ==> IsSpace(s[i])
  }

  lemma AllSpaceAppend(a: string, b: string)
    requires AllSpace(a) && AllSpace(b)
    ensures AllSpace(a + b)
  {
    forall i | 0 <= i < |a + b| ensures IsSpace((a + b)[i]) {
      if i >= |a| {
        assert (a + b)[i] == b[i - |a|];
      }
    }
  }

  /** Drops the leading whitespace: the result is a suffix of `s`, what was
      dropped is all whitespace, and the result does not start with whitespace. */
  function TrimStart(s: string): (r: string)
    ensures |r| <= |s| && r == s[|s| - |r|..]
    ensures AllSpace(s[..|s| - |r|])
    ensures |r| > 0 ==> !IsSpace(r[0])
  {
    if |s| > 0 && IsSpace(s[0]) then TrimStart(s[1..]) else s
  }

  /** Drops the trailing whitespace: the result is a prefix of `s`, what was
      dropped is all whitespace, and the result does not end with whitespace. */
  function TrimEnd(s: string): (r: string)
    ensures |r| <= |s| && r == s[..|r|]
    ensures AllSpace(s[|r|..])
    ensures |r| > 0 ==> !IsSpace(r[|r| - 1])
  {
    if |s| > 0 && IsSpace(s[|s| - 1]) then TrimEnd(s[..|s| - 1]) else s
  }

  /** `s.trim()`: the part of `s` left once the whitespace at both ends is
      removed; it sits in `s` between two runs of whitespace and neither
      starts nor ends with whitespace itself. */
  function Trim(s: string): (r: string)
    ensures exists k :: OccursAt(s, r, k) && AllSpace(s[..k]) && AllSpace(s[k + |r|..])
    ensures |r| > 0 ==> !IsSpace(r[0]) && !IsSpace(r[|r| - 1])
  {
    var a := TrimStart(s);
    var b := TrimEnd(a);
    TrimParts(s, a, b);
    b
  }

  lemma TrimParts(s: string, a: string, b: string)
    requires |a| <= |s| && a == s[|s| - |a|..]
    requires |b| <= |a| && b == a[..|b|]
    requires AllSpace(a[|b|..])
    ensures OccursAt(s, b, |s| - |a|)
    ensures AllSpace(s[|s| - |a| + |b|..])
  {
    var k := |s| - |a|;
    assert s[k..k + |b|] == b;
    assert s[k + |b|..] == a[|b|..];
  }

  /** `s.trim()` is empty exactly when `s` is whitespace only. */
  lemma TrimEmptyIff(s: string)
    ensures Trim(s) == "" <==> AllSpace(s)
  {
    var r := Trim(s);
    var k :| OccursAt(s, r, k) && AllSpace(s[..k]) && AllSpace(s[k + |r|..]);
    if r == "" {
      assert s[k + |r|..] == s[k..];
      AllSpaceAppend(s[..k], s[k..]);
      assert s == s[..k] + s[k..];
    } else {
      assert r[0] == s[k];
      assert !IsSpace(s[k]);
    }
  }

  // ---------------------------------------------------- search in strings

  /** `sub` occurs in `s` starting at position `i`. */
  predicate OccursAt(s: string, sub: string, i: int) {
    0 <= i && i + |sub| <= |s| && s[i..i + |sub|] == sub
  }

  /** Occurrences in `s` at positions from 1 on are the occurrences in `s[1..]`, shifted by one. */
  lemma OccursShift(s: string, sub: string)
    requires |s| > 0
    ensures forall j :: 1 <= j ==> (OccursAt(s, sub, j) <==> OccursAt(s[1..], sub, j - 1))
  {
    forall j | 1 <= j
      ensures OccursAt(s, sub, j) <==> OccursAt(s[1..], sub, j - 1)
    {
      if j + |sub| <= |s| {
        assert s[1..][j - 1..j - 1 + |sub|] == s[j..j + |sub|];
      }
    }
  }

  /** `s.indexOf(sub)`: the first position where `sub` occurs; None stands for -1. */
  function IndexOf(s: string, sub: string): (r: Option<nat>)
    ensures r.Some? ==> OccursAt(s, sub, r.value)
    ensures r.Some? ==> forall j :: 0 <= j < r.value ==> !OccursAt(s, sub, j)
    ensures r.None? ==> forall j :: !OccursAt(s, sub, j)
    decreases |s|
  {
    if |s| < |sub| then None
    else if s[..|sub|] == sub then Some(0)
    else
      assert |s| > 0;
      OccursShift(s, sub);
      match IndexOf(s[1..], sub)
      case None => None
      case Some(k) => Some(k + 1)
  }

  /** The first occurrence is the one `IndexOf` reports. */
  lemma IndexOfFirst(s: string, sub: string, i: nat)
    requires OccursAt(s, sub, i)
    requires forall j :: 0 <= j < i ==> !OccursAt(s, sub, j)
    ensures IndexOf(s, sub) == Some(i)
  {
  }

  /** `s.includes(sub)`. */
  predicate Contains(s: string, sub: string)
    ensures Contains(s, sub) <==> exists i :: OccursAt(s, sub, i)
  {
    IndexOf(s, sub).Some?
  }

  /** `s.endsWith(suffix)`. */
  predicate EndsWith(s: string, suffix: string) {
    |suffix| <= |s| && s[|s| - |suffix|..] == suffix
  }

  /** `s.replace(pat, '')`: deletes the FIRST occurrence of `pat`, wherever it
      is, and returns `s` unchanged when there is none. */
  function RemoveFirst(s: string, pat: string): (r: string)
    ensures !Contains(s, pat) ==> r == s
    ensures Contains(s, pat) ==>
      (|r| == |s| - |pat| &&
       exists i :: (OccursAt(s, pat, i) && (forall j :: 0 <= j < i ==> !OccursAt(s, pat, j))
                    && r == s[..i] + s[i + |pat|..]))
  {
    match IndexOf(s, pat)
    case None => s
    case Some(i) => s[..i] + s[i + |pat|..]
  }

  // ------------------------------------------------------------- numbers

  function DigitChar(d: nat): char
    requires d < 10
  {
    ('0' as int + d) as char
  }

  /** The decimal rendering of `n`, as `${n}` produces it. */
  function Decimal(n: nat): (r: string)
    ensures |r| > 0
    ensures forall i :: 0 <= i < |r| ==> '0' <= r[i] <= '9'
  {
    if n < 10 then [DigitChar(n)] else Decimal(n / 10) + [DigitChar(n % 10)]
  }

  /** Reads a string of decimal digits back as a number. */
  ghost function ParseDecimal(s: string): int {
    if s == [] then 0 else ParseDecimal(s[..|s| - 1]) * 10 + (s[|s| - 1] as int - '0' as int)
  }

  lemma {:induction false} DecimalRoundTrip(n: nat)
    ensures ParseDecimal(Decimal(n)) == n
  {
    if n >= 10 {
      var d := Decimal(n);
      assert d[..|d| - 1] == Decimal(n / 10);
      DecimalRoundTrip(n / 10);
    }
  }

  /** Different counters render differently. */
  lemma DecimalInjective(m: nat, n: nat)
    requires Decimal(m) == Decimal(n)
    ensures m == n
  {
    DecimalRoundTrip(m);
    DecimalRoundTrip(n);
  }
}

=== FILE: vault.dfy ===
/** The main process's note repository: vault-path resolution, directory
    switching, and the `get-notes`, `save-note` and `delete-note` handlers,
    over an abstract disk. The frontmatter library is a `Codec` parameter and
    every outcome the model cannot see (dialog, read, stat, rename and write
    failures) is an input. */
module Vault {
  import opened Options
  import opened Text
  import opened Notes

  const NoteExtension: string := ".md"
  const DefaultFolder: string := "Orbital"

  /** The files of one directory: name to text. */
  type Dir = map<string, string>

  /** The per-installation `config.json`: absent, unreadable or not JSON, or
      parsed with an optional string `vaultPath`. */
  datatype ConfigFile = Missing | Unreadable | Parsed(vaultPath: Option<string>)

  /** The disk: the config file and every existing directory with its files. */
  datatype Disk = Disk(config: ConfigFile, dirs: map<string, Dir>)

  /** Main-process state: the disk and the current vault directory. */
  datatype Main = Main(disk: Disk, vault: string)

  /** What the frontmatter library returns when it parses a file. */
  datatype Matter = Matter(content: string, icon: Option<string>, tags: Option<seq<string>>)

  /** The frontmatter library, left uninterpreted: `stringify(body, icon, tags)`
      and `parse(text)`, where None stands for a parse that throws. */
  datatype Codec = Codec(
    stringify: (string, string, seq<string>) -> string,
    parse: string -> Option<Matter>)

  /** The two timestamps `statSync` reports. */
  datatype Stat = Stat(birthtimeMs: int, mtimeMs: int)

  /** Outcomes of the file-system calls of one listing: the directory entries in
      the order `readdirSync` returns them, the files whose read throws, the
      stat of every file whose stat succeeds, and whether the listing as a
      whole throws. */
  datatype ListIo = ListIo(entries: seq<string>, unreadable: set<string>, stats: map<string, Stat>, listingFails: bool)

  /** Outcomes of the two file-system calls of one save. */
  datatype SaveIo = SaveIo(renameOk: bool, writeOk: bool)

  /** The directory-picker result. */
  datatype Dialog = Dialog(canceled: bool, filePaths: seq<string>)

  // ------------------------------------------------------- configuration

  function DefaultVault(documents: string): string {
    documents + "/" + DefaultFolder
  }

  /** The config names a vault: it parses, `vaultPath` is a non-empty string
      (JavaScript truthiness) and that path exists. */
  predicate HasUsableConfig(disk: Disk) {
    && disk.config.Parsed?
    && disk.config.vaultPath.Some?
    && disk.config.vaultPath.value != ""
    && disk.config.vaultPath.value in disk.dirs
  }

  /** `getVaultPath`: the configured vault when the config is usable, else
      `<documents>/Orbital`; a missing, unreadable or malformed config never
      raises. */
  function GetVaultPath(disk: Disk, documents: string): (p: string)
    ensures HasUsableConfig(disk) ==> p == disk.config.vaultPath.value && p in disk.dirs
    ensures !HasUsableConfig(disk) ==> p == DefaultVault(documents)
  {
    match disk.config
    case Parsed(Some(v)) => if v != "" && v in disk.dirs then v else DefaultVault(documents)
    case _ => DefaultVault(documents)
  }

  /** `if (!existsSync(p)) mkdirSync(p, { recursive: true })`. */
  function EnsureDir(disk: Disk, p: string): (d: Disk)
    ensures p in d.dirs
    ensures d.config == disk.config
    ensures p in disk.dirs ==> d == disk
    ensures p !in disk.dirs ==> d.dirs[p] == map[]
    ensures d.dirs.Keys == disk.dirs.Keys + {p}
    ensures forall q :: q in disk.dirs ==> d.dirs[q] == disk.dirs[q]
  {
    if p in disk.dirs then disk else disk.(dirs := disk.dirs[p := map[]])
  }

  /** Start-up: resolve the vault and create it when missing. */
  function Boot(disk: Disk, documents: string): (m: Main)
    ensures m.vault in m.disk.dirs
    ensures m.disk.config == disk.config
    ensures HasUsableConfig(disk) ==> m.vault == disk.config.vaultPath.value && m.disk == disk
    ensures !HasUsableConfig(disk) ==> m.vault == DefaultVault(documents)
    ensures m.vault in disk.dirs ==> m.disk == disk
    ensures m.disk == EnsureDir(disk, m.vault)
  {
    var p := GetVaultPath(disk, documents);
    Main(EnsureDir(disk, p), p)
  }

  /** The `select-directory` handler: with no window, a cancelled dialog or no
      path, nothing changes and the result is null; otherwise the first path
      is written to the config, becomes the vault and is returned. */
  function SelectDirectory(m: Main, hasWindow: bool, d: Dialog): (r: (Main, Option<string>))
    ensures !hasWindow || d.canceled || |d.filePaths| == 0 ==> r == (m, None)
    ensures hasWindow && !d.canceled && |d.filePaths| > 0 ==>
      && r.1 == Some(d.filePaths[0])
      && r.0.vault == d.filePaths[0]
      && r.0.disk.config == Parsed(Some(d.filePaths[0]))
      && r.0.disk.dirs == m.disk.dirs
  {
    if hasWindow && !d.canceled && |d.filePaths| > 0 then
      var p := d.filePaths[0];
      (Main(m.disk.(config := Parsed(Some(p))), p), Some(p))
    else
      (m, None)
  }

  /** A directory chosen in the picker (it exists and has a non-empty path) is
      the vault the next start-up resolves: the config round-trips. */
  lemma SelectThenBoot(m: Main, d: Dialog, documents: string)
    requires |d.filePaths| > 0 && !d.canceled
    requires d.filePaths[0] != "" && d.filePaths[0] in m.disk.dirs
    ensures Boot(SelectDirectory(m, true, d).0.disk, documents).vault == d.filePaths[0]
  {
  }

  // ------------------------------------------------------------- listing

  /** Note files are the entries whose name ends in ".md". */
  predicate IsNoteFile(name: string) {
    EndsWith(name, NoteExtension)
  }

  /** The file a note is saved under: `${title}.md`. */
  function FileName(title: string): (f: string)
    ensures IsNoteFile(f)
  {
    title + NoteExtension
  }

  /** The id and title derived from a file name: `file.replace('.md', '')`,
      which deletes the FIRST ".md", not the extension. */
  function Stem(name: string): string {
    RemoveFirst(name, NoteExtension)
  }

  /** `entries` lists the names of `dir`, each once. */
  predicate Enumerates(entries: seq<string>, dir: Dir) {
    && (forall i :: 0 <= i < |entries| ==> entries[i] in dir)
    && (forall k :: k in dir ==> k in entries)
    && (forall i, j :: 0 <= i < j < |entries| ==> entries[i] != entries[j])
  }

  /** Loading one file: read, parse, stat; any of the three throwing drops it. */
  function LoadFile(dir: Dir, name: string, io: ListIo, codec: Codec): (r: Option<Note>)
    ensures r.Some? <==>
      name in dir && name !in io.unreadable && codec.parse(dir[name]).Some? && name in io.stats
    ensures r.Some? ==> r.value.id == Stem(name) && r.value.title == Stem(name)
    ensures r.Some? ==>
      var mt := codec.parse(dir[name]).value;
      && r.value.content == mt.content && r.value.icon == mt.icon && r.value.tags == mt.tags
      && r.value.createdAt == io.stats[name].birthtimeMs && r.value.updatedAt == io.stats[name].mtimeMs
  {
    if name !in dir || name in io.unreadable then None
    else match codec.parse(dir[name])
      case None => None
      case Some(m) =>
        if name !in io.stats then None
        else
          var st := io.stats[name];
          Some(Note(Stem(name), Stem(name), m.content, st.birthtimeMs, st.mtimeMs, m.icon, m.tags))
  }

  /** What one name contributes to the listing: its note when it is a note
      file that loads, else nothing. */
  function LoadHead(dir: Dir, f: string, io: ListIo, codec: Codec): (r: seq<Note>)
    ensures |r| <= 1
  {
    if IsNoteFile(f) && LoadFile(dir, f, io, codec).Some? then [LoadFile(dir, f, io, codec).value] else []
  }

  /** The note files among `names` that load, in order. */
  function LoadAll(dir: Dir, names: seq<string>, io: ListIo, codec: Codec): (r: seq<Note>)
    ensures |r| <= |names|
  {
    if names == [] then []
    else LoadHead(dir, names[0], io, codec) + LoadAll(dir, names[1..], io, codec)
  }

  /** Every listed note comes from a loadable note file among `names`, and
      every loadable note file among `names` gives a listed note. */
  lemma {:induction false} LoadAllSound(dir: Dir, names: seq<string>, io: ListIo, codec: Codec)
    ensures forall n :: n in LoadAll(dir, names, io, codec) ==>
      exists f :: f in names && IsNoteFile(f) && LoadFile(dir, f, io, codec) == Some(n)
    ensures forall f :: f in names && IsNoteFile(f) && LoadFile(dir, f, io, codec).Some? ==>
      LoadFile(dir, f, io, codec).value in LoadAll(dir, names, io, codec)
  {
    if names != [] {
      LoadAllSound(dir, names[1..], io, codec);
      LoadAllCons(dir, names, io, codec);
      assert forall g :: g in names[1..] ==> g in names;
      assert forall g :: g in names ==> g == names[0] || g in names[1..];
    }
  }

  lemma LoadAllCons(dir: Dir, names: seq<string>, io: ListIo, codec: Codec)
    requires names != []
    ensures LoadAll(dir, names, io, codec) == LoadHead(dir, names[0], io, codec) + LoadAll(dir, names[1..], io, codec)
  {
  }

  /** The listing works file by file: listing `a + b` is listing `a`, then `b`. */
  lemma {:induction false} LoadAllAppend(dir: Dir, a: seq<string>, b: seq<string>, io: ListIo, codec: Codec)
    ensures LoadAll(dir, a + b, io, codec) == LoadAll(dir, a, io, codec) + LoadAll(dir, b, io, codec)
  {
    if a == [] {
      assert a + b == b;
    } else {
      var ab := a + b;
      assert ab[0] == a[0];
      assert ab[1..] == a[1..] + b;
      var h := LoadHead(dir, a[0], io, codec);
      calc {
        LoadAll(dir, ab, io, codec);
        { LoadAllCons(dir, ab, io, codec); }
        h + LoadAll(dir, a[1..] + b, io, codec);
        { LoadAllAppend(dir, a[1..], b, io, codec); }
        h + (LoadAll(dir, a[1..], io, codec) + LoadAll(dir, b, io, codec));
        (h + LoadAll(dir, a[1..], io, codec)) + LoadAll(dir, b, io, codec);
        { LoadAllCons(dir, a, io, codec); }
        LoadAll(dir, a, io, codec) + LoadAll(dir, b, io, codec);
      }
    }
  }

  /** Every name in `names` is a note file that loads. */
  predicate AllLoad(dir: Dir, names: seq<string>, io: ListIo, codec: Codec) {
    forall i :: 0 <= i < |names| ==> IsNoteFile(names[i]) && LoadFile(dir, names[i], io, codec).Some?
  }

  /** Note files that all load give one note each. */
  lemma {:induction false} LoadAllLoadable(dir: Dir, names: seq<string>, io: ListIo, codec: Codec)
    requires AllLoad(dir, names, io, codec)
    ensures |LoadAll(dir, names, io, codec)| == |names|
  {
    if names != [] {
      var rest := names[1..];
      assert forall i :: 0 <= i < |rest| ==> rest[i] == names[i + 1];
      LoadAllLoadable(dir, rest, io, codec);
      LoadAllCons(dir, names, io, codec);
    }
  }

  lemma AllLoadSlices(dir: Dir, names: seq<string>, k: nat, io: ListIo, codec: Codec)
    requires AllLoad(dir, names, io, codec) && k <= |names|
    ensures AllLoad(dir, names[..k], io, codec) && AllLoad(dir, names[k..], io, codec)
  {
    assert forall i :: 0 <= i < k ==> names[..k][i] == names[i];
    assert forall i :: 0 <= i < |names| - k ==> names[k..][i] == names[k + i];
  }

  lemma LoadAllFailing(dir: Dir, bad: string, io: ListIo, codec: Codec)
    requires !(IsNoteFile(bad) && LoadFile(dir, bad, io, codec).Some?)
    ensures LoadAll(dir, [bad], io, codec) == []
  {
    LoadAllCons(dir, [bad], io, codec);
    assert [bad][1..] == [];
  }

  /** One corrupt note file among N good ones: the listing has exactly N notes. */
  lemma ListingResilience(dir: Dir, good: seq<string>, bad: string, k: nat, io: ListIo, codec: Codec)
    requires AllLoad(dir, good, io, codec)
    requires IsNoteFile(bad) && LoadFile(dir, bad, io, codec).None?
    requires k <= |good|
    ensures |LoadAll(dir, good[..k] + [bad] + good[k..], io, codec)| == |good|
  {
    var pre, post := good[..k], good[k..];
    LoadAllAppend(dir, pre + [bad], post, io, codec);
    LoadAllAppend(dir, pre, [bad], io, codec);
    AllLoadSlices(dir, good, k, io, codec);
    LoadAllLoadable(dir, pre, io, codec);
    LoadAllLoadable(dir, post, io, codec);
    LoadAllFailing(dir, bad, io, codec);
    assert |pre| + |post| == |good|;
  }

  /** The `get-notes` handler: re-create the vault if missing, then list its
      ".md" files, dropping each file that fails; a failure of the listing
      itself gives the empty list. */
  function GetNotes(m: Main, io: ListIo, codec: Codec): (r: (Main, seq<Note>))
    requires !io.listingFails ==> Enumerates(io.entries, EnsureDir(m.disk, m.vault).dirs[m.vault])
    ensures r.0 == Main(EnsureDir(m.disk, m.vault), m.vault)
    ensures io.listingFails ==> r.1 == []
    ensures !io.listingFails ==> r.1 == LoadAll(r.0.disk.dirs[m.vault], io.entries, io, codec)
    ensures forall n :: n in r.1 ==>
      (n.id == n.title &&
       exists f :: f in r.0.disk.dirs[m.vault] && IsNoteFile(f) && LoadFile(r.0.disk.dirs[m.vault], f, io, codec) == Some(n))
    ensures !io.listingFails ==> forall f ::
      (f in r.0.disk.dirs[m.vault] && IsNoteFile(f) && LoadFile(r.0.disk.dirs[m.vault], f, io, codec).Some?) ==>
        LoadFile(r.0.disk.dirs[m.vault], f, io, codec).value in r.1
  {
    var disk := EnsureDir(m.disk, m.vault);
    if io.listingFails then (Main(disk, m.vault), [])
    else
      LoadAllSound(disk.dirs[m.vault], io.entries, io, codec);
      (Main(disk, m.vault), LoadAll(disk.dirs[m.vault], io.entries, io, codec))
  }

  // ---------------------------------------------------------------- save

  /** The text written for a note: missing icon and tags become '' and []. */
  function Payload(note: Note, codec: Codec): string {
    codec.stringify(note.content, note.icon.GetOr(""), note.tags.GetOr([]))
  }

  /** The save tries to move `${id}.md` first: id non-empty, different from the
      title, and the old file present. */
  predicate RenameAttempted(note: Note, dir: Dir) {
    note.id != "" && note.id != note.title && FileName(note.id) in dir
  }

  /** Entry `k` is the same in both directories. */
  predicate Same(d: Dir, d': Dir, k: string) {
    (k in d <==> k in d') && (k in d ==> d[k] == d'[k])
  }

  /** `title.md` names one file per title. */
  lemma FileNameInjective(a: string, b: string)
    ensures FileName(a) == FileName(b) <==> a == b
  {
    if FileName(a) == FileName(b) {
      assert a == FileName(a)[..|a|];
    }
  }

  /** The `save-note` handler: an optional rename-as-move from `${id}.md` whose
      failure is swallowed, then a whole-file write of `${title}.md`; returns
      whether the write succeeded. Only the old and new names change. */
  function SaveNote(m: Main, note: Note, codec: Codec, io: SaveIo): (r: (Main, bool))
    ensures r.0.vault == m.vault && r.0.disk.config == m.disk.config
    ensures r.0.disk.dirs.Keys == m.disk.dirs.Keys
    ensures forall q :: q in m.disk.dirs && q != m.vault ==> r.0.disk.dirs[q] == m.disk.dirs[q]
    ensures r.1 <==> io.writeOk && m.vault in m.disk.dirs
    ensures m.vault !in m.disk.dirs ==> r.0 == m
    ensures m.vault in m.disk.dirs ==>
      var d, d', src, dst := m.disk.dirs[m.vault], r.0.disk.dirs[m.vault], FileName(note.id), FileName(note.title);
      && (forall k :: k != src && k != dst ==> Same(d, d', k))
      && (!RenameAttempted(note, d) ==> forall k :: k != dst ==> Same(d, d', k))
      && (r.1 ==> dst in d' && d'[dst] == Payload(note, codec))
      && (RenameAttempted(note, d) && io.renameOk ==> src !in d')
      && (RenameAttempted(note, d) && io.renameOk && !r.1 ==> dst in d' && d'[dst] == d[src])
      && (RenameAttempted(note, d) && !io.renameOk ==> Same(d, d', src))
      && (!r.1 && !(RenameAttempted(note, d) && io.renameOk) ==> d' == d)
  {
    if m.vault !in m.disk.dirs then (m, false)
    else
      var d := m.disk.dirs[m.vault];
      var src, dst := FileName(note.id), FileName(note.title);
      FileNameInjective(note.id, note.title);
      var moved := if RenameAttempted(note, d) && io.renameOk then (d - {src})[dst := d[src]] else d;
      var written := if io.writeOk then moved[dst := Payload(note, codec)] else moved;
      (Main(m.disk.(dirs := m.disk.dirs[m.vault := written]), m.vault), io.writeOk)
  }

  /** A failed rename orphans the old file: after a successful write both the
      old and the new file are in the vault. */
  lemma FailedRenameOrphans(m: Main, note: Note, codec: Codec)
    requires m.vault in m.disk.dirs && RenameAttempted(note, m.disk.dirs[m.vault])
    ensures var d' := SaveNote(m, note, codec, SaveIo(false, true)).0.disk.dirs[m.vault];
      FileName(note.id) in d' && FileName(note.title) in d'
  {
  }

  // -------------------------------------------------------------- delete

  /** The `delete-note` handler: removes `${title}.md` when it exists and
      reports whether it did; nothing else changes. */
  function DeleteNote(m: Main, title: string): (r: (Main, bool))
    ensures r.1 <==> m.vault in m.disk.dirs && FileName(title) in m.disk.dirs[m.vault]
    ensures !r.1 ==> r.0 == m
    ensures r.1 ==>
      && r.0.vault == m.vault && r.0.disk.config == m.disk.config
      && r.0.disk.dirs.Keys == m.disk.dirs.Keys
      && (forall q :: q in m.disk.dirs && q != m.vault ==> r.0.disk.dirs[q] == m.disk.dirs[q])
      && FileName(title) !in r.0.disk.dirs[m.vault]
      && forall k :: k != FileName(title) ==> Same(m.disk.dirs[m.vault], r.0.disk.dirs[m.vault], k)
  {
    var name := FileName(title);
    if m.vault in m.disk.dirs && name in m.disk.dirs[m.vault] then
      (Main(m.disk.(dirs := m.disk.dirs[m.vault := m.disk.dirs[m.vault] - {name}]), m.vault), true)
    else (m, false)
  }

  /** Deleting the same title twice: the second call reports false and changes nothing. */
  lemma DeleteTwice(m: Main, title: string)
    ensures var m1 := DeleteNote(m, title).0; DeleteNote(m1, title) == (m1, false)
  {
  }

  // ------------------------------------------------ filename round trips

  /** A title without ".md" inside is recovered from its file name: what is
      saved under `title` is listed back with id and title `title`. */
  lemma TitleRoundTrip(t: string)
    requires !Contains(t, NoteExtension)
    ensures Stem(FileName(t)) == t
  {
    var f := FileName(t);
    assert OccursAt(f, NoteExtension, |t|) by { assert f[|t|..] == NoteExtension; }
    forall j | 0 <= j < |t| ensures !OccursAt(f, NoteExtension, j) {
      if j + 3 <= |t| {
        assert f[j..j + 3] == t[j..j + 3];
        assert !OccursAt(t, NoteExtension, j);
      } else if j == |t| - 1 {
        assert f[j + 1] == '.' != NoteExtension[1];
        assert f[j..j + 3][1] == f[j + 1];
      } else {
        assert f[j + 2] == '.' != NoteExtension[2];
        assert f[j..j + 3][2] == f[j + 2];
      }
    }
    IndexOfFirst(f, NoteExtension, |t|);
    assert f[..|t|] == t;
  }

  /** A note file whose name has ".md" before the extension is listed under a
      stem that does not lead back to it: "x.mdy.md" is listed as "xy.md",
      whose file name is "xy.md.md". */
  lemma StemIsNotSuffixStrip()
    ensures Stem("x.mdy.md") == "xy.md"
    ensures FileName(Stem("x.mdy.md")) != "x.mdy.md"
  {
    var f := "x.mdy.md";
    assert f[1..4] == NoteExtension;
    NoDotNoExtension(f, 0);
    StemCutsFirst(f, 1);
    assert f[..1] + f[4..] == "xy.md";
  }

  /** A position that does not hold a dot does not start the extension. */
  lemma NoDotNoExtension(s: string, j: nat)
    requires j < |s| && s[j] != '.'
    ensures !OccursAt(s, NoteExtension, j)
  {
    if j + |NoteExtension| <= |s| {
      assert s[j..j + |NoteExtension|][0] == s[j];
    }
  }

  /** The stem cuts out the first ".md", wherever it is. */
  lemma StemCutsFirst(s: string, i: nat)
    requires OccursAt(s, NoteExtension, i)
    requires forall j :: 0 <= j < i ==> !OccursAt(s, NoteExtension, j)
    ensures Stem(s) == s[..i] + s[i + |NoteExtension|..]
  {
    IndexOfFirst(s, NoteExtension, i);
  }

  /** Saving the note listed from "x.mdy.md" (id == title, so no rename) writes
      "xy.md.md" and leaves "x.mdy.md" as it was. */
  lemma EditOfMisreadNoteLandsElsewhere(m: Main, n: Note, codec: Codec)
    requires m.vault in m.disk.dirs && "x.mdy.md" in m.disk.dirs[m.vault]
    requires n.id == Stem("x.mdy.md") && n.title == n.id
    ensures var d' := SaveNote(m, n, codec, SaveIo(true, true)).0.disk.dirs[m.vault];
      && "xy.md.md" in d'
      && "x.mdy.md" in d' && d'["x.mdy.md"] == m.disk.dirs[m.vault]["x.mdy.md"]
  {
    StemIsNotSuffixStrip();
    assert FileName(n.title) == "xy.md.md";
  }

  /** Deleting the note listed from "x.mdy.md" asks for "xy.md.md", which is
      not there (unless another note owns it): the delete reports false and
      "x.mdy.md" stays, so the note comes back at the next listing. */
  lemma DeleteOfMisreadNoteMisses(m: Main)
    requires m.vault in m.disk.dirs && "x.mdy.md" in m.disk.dirs[m.vault]
    requires "xy.md.md" !in m.disk.dirs[m.vault]
    ensures DeleteNote(m, Stem("x.mdy.md")) == (m, false)
  {
    StemIsNotSuffixStrip();
    assert FileName("xy.md") == "xy.md.md";
  }

  /** Two different note files can be listed with the same id. */
  lemma ListingCanDuplicateIds()
    ensures IsNoteFile("ab.md.md") && IsNoteFile("a.mdb.md")
    ensures Stem("ab.md.md") == Stem("a.mdb.md") == "ab.md"
  {
    StemOfAbMdMd();
    StemOfAMdbMd();
  }

  lemma StemOfAbMdMd()
    ensures IsNoteFile("ab.md.md") && Stem("ab.md.md") == "ab.md"
  {
    var f := "ab.md.md";
    assert f[2..5] == NoteExtension && f[|f| - 3..] == NoteExtension;
    NoDotNoExtension(f, 0);
    NoDotNoExtension(f, 1);
    StemCutsFirst(f, 2);
    assert f[..2] + f[5..] == "ab.md";
  }

  lemma StemOfAMdbMd()
    ensures IsNoteFile("a.mdb.md") && Stem("a.mdb.md") == "ab.md"
  {
    var g := "a.mdb.md";
    assert g[1..4] == NoteExtension && g[|g| - 3..] == NoteExtension;
    NoDotNoExtension(g, 0);
    StemCutsFirst(g, 1);
    assert g[..1] + g[4..] == "ab.md";
  }

  /** Save then list: a successful save of a title without ".md" inside is
      listed back with that title as id and title, whenever the new file
      reads, parses and stats. */
  lemma SaveThenList(m: Main, note: Note, codec: Codec, sio: SaveIo, lio: ListIo)
    requires m.vault in m.disk.dirs && sio.writeOk
    requires !Contains(note.title, NoteExtension)
    requires FileName(note.title) !in lio.unreadable && FileName(note.title) in lio.stats
    requires codec.parse(Payload(note, codec)).Some?
    ensures var d' := SaveNote(m, note, codec, sio).0.disk.dirs[m.vault];
      var r := LoadFile(d', FileName(note.title), lio, codec);
      r.Some? && r.value.id == note.title && r.value.title == note.title
  {
    TitleRoundTrip(note.title);
  }
}
